=== FILE: README.md ===
# Cognito auth gateway and custom-message trigger, in Dafny

This project models the two Lambda functions of the user-authentication service:

- **The request handler** (`requests/app.js`). It is an HTTP gateway in front of an identity provider. A request with a body is dispatched on its path: `/register`, `/login`, `/changePassword`, `/forgotPassword` or `/resetPassword`. Each handler except `/resetPassword` validates its required fields, makes one provider call (registration with a new group makes three), and answers with `response(statusCode, message)`. That helper returns a 301 with a `Location` header, or any other status with a JSON body. Two body-less paths are reached from e-mail links:
  - `/confirmSignUp`, which confirms a sign-up code;
  - `/confirmRegistration`, which logs in with the code as a one-time password.

  With query parameters, `/confirmSignUp` always answers with a redirect to `REDIRECT_URI`, carrying a `success` flag and the user status. `/confirmRegistration` redirects the same way, adding the URI-encoded code, but only when the query holds both a username and a code; without them the invocation fails. Either path fails when the request has no query parameters at all. An `OPTIONS` request that none of these branches took (one lacking a path or a body, and not on a confirmation path) gets a 200 preflight reply. Every other request gets `invalid body`.
- **The custom-message trigger** (`custom_message/app.js`). It asks the parameter store for three parameters:
  - the site URL, `/formkiq/cognito/<DOMAIN>/CognitoHttpApiUrl`;
  - the subject and the message, both under `/formkiq/cognito/<DOMAIN>/<triggerSource>/`.

  It then picks each parameter from the answer by name suffix. For the sign-up and forgot-password triggers it sets the e-mail subject, and writes the message with `${link}` replaced by an HTML anchor. For sign-up, the anchor points at `<site URL>/confirmSignUp?...`. For a password reset, it points at `<REDIRECT_URI>/lostpassword?...`. The query carries the code, user name, client id, region and e-mail. Every other trigger gets the event back unchanged.

The model keeps the source's JavaScript semantics where they matter:
- In the event's own properties (path, method, query, trigger fields), `undefined` and `null` are both `None`.
- In a parsed request body they stay distinct (`Js.Value.Undefined` and `Js.Value.Null`), so a `null` field counts as present in `isValidFields`.
- `"" + undefined` is the text `"undefined"` (`Js.ToStr`).
- `!= null` is loose inequality (`Js.LooseNotNull`).
- `obj[k] === undefined` holds for a key the parsed body lacks (`Js.Get`); names inherited from `Object.prototype` are not modelled (see "## Left out").
- `JSON.stringify` of a string follows the quoting of ECMA-262 (section 25.5.2.2, QuoteJSONString); its inverse (`Json.Unescape`) is proved to read it back.
- `String.prototype.replace` with a string pattern follows GetSubstitution (ECMA-262 section 22.1.3.19.1) in `Js.Replace`. The custom-message handler as written (`CustomMessage.Handle`) uses it; the intended handler (`CustomMessage.HandleIntended`) inserts the link literally.

Where the source has a bug (see "## Findings"), the model has two versions: a handler as written, which the main entry points use, and a corrected one beside it. `Router.Handle` and `CustomMessage.Handle` are the source's behaviour. `Router.HandleIntended` and `CustomMessage.HandleIntended` are the corrected behaviour.

Collaborators the code calls into are parameters of the model:
- the identity provider (`Handlers.Provider`, a function from the call made to how it settled);
- the parameter store (`CustomMessage.Store`);
- `encodeURIComponent`;
- the draws of `Math.random` (`Random.RandomString` takes them as a sequence);
- the environment variables (`Handlers.Env`, `CustomMessage.Env`).

A handler that returns a promise is modelled by what the promise settles to: `Wrappers.Settled`, either a resolved response or a rejection.

Modules follow the source:

| module | what it models |
|---|---|
| `Wrappers`, `Strings`, `Query`, `Json`, `Js` | JavaScript values and the string operations the handlers use |
| `Envelope` | `response` |
| `Fields` | `isValidFields` |
| `Random` | `randomString` |
| `Handlers` | `handleRegister`, `login`, `changepassword`, `forgotPassword`, `resetPassword` |
| `Confirm` | `confirmSignUp`, `confirmRegistration` |
| `Router` | `lambdaHandler` of requests/app.js |
| `CustomMessage` | custom_message/app.js |

## Model

| member | source | states |
|---|---|---|
| Envelope.Respond | requests/app.js:218-233 | The status is kept. For 301 there is a `headers.Location` holding the message and no body. For any other status there is no headers field and the body is the JSON text of the message. |
| Envelope.ReplyShape | requests/app.js:227-231 | A non-301 reply of `{message: text}` has a body that reads back as exactly `text`, and no headers. |
| Envelope.RedirectShape | requests/app.js:220-226 | A redirect is a 301 whose `Location` is the given target and which has no body. |
| Envelope.PlainReplyBody | requests/app.js:228-231 | For text with no character that JSON escapes, the body is literally `{"message":"` + text + `"}`. |
| Json.UnescapeEscape | requests/app.js:230 | The string quoting of `JSON.stringify` is invertible: reading the escapes back gives the original string. |
| Json.EscapePlain | requests/app.js:230 | `JSON.stringify` leaves a string without quotes, backslashes or control characters unchanged inside its quotes. |
| Fields.IsValidFields | requests/app.js:235-246 | The fields are valid exactly when every required key is defined in the object. |
| Fields.MissingFieldFails | requests/app.js:239-243 | One required field that is undefined makes the whole check fail. |
| Fields.ValidityIgnoresOrder | requests/app.js:235-246 | The verdict depends only on the set of required fields, not on their order or repetition. |
| Random.RandomString | requests/app.js:248-251 | The result has one character per loop round (`max(length, 0)` rounds). Character k is the character of `chars` at an index in [0, chars.length) chosen by draw k (the floor of the exact product of the draw and the length), so every character comes from `chars`. With an empty alphabet, each round appends `"undefined"`. |
| Handlers.Register | requests/app.js:105-148 | Missing `username` or `password`: 400 with the missing-fields message. Otherwise, the answer is 200 `User registered` exactly when the sign-up succeeded and, if `createNewGroup` is neither null nor undefined, the group creation and the add-to-group both succeeded. Any other answer is a 400 whose body is the error of the first call in the chain that failed: sign-up, then group creation, then adding the user to the group. |
| Handlers.Login | requests/app.js:193-216 | Missing `username` or `password`: 400 `missing fields 'username'`. Otherwise, the provider's reply is the body of a 200, and its error is the body of a 400. |
| Handlers.LoginMissingField | requests/app.js:193-216 | A login body without `password` (or without `username`) gets the missing-fields reply. |
| Handlers.ChangePasswordHandler | requests/app.js:150-170 | All three of `accessToken`, `password` and `previousPassword` are required. With them, the answer is 200 `Change Password` exactly when the provider succeeded, and a 400 with its error otherwise. |
| Handlers.ChangePasswordMissingField | requests/app.js:150-170 | A body missing any one of the three fields gets the missing-fields reply. |
| Handlers.ForgotPasswordHandler | requests/app.js:172-191 | `username` is required. With it, the answer is 200 `Password reset sent` exactly when the provider succeeded, and a 400 with its error otherwise. |
| Handlers.ForgotPasswordMissingField | requests/app.js:172-191 | A body without `username` gets the missing-fields reply. |
| Handlers.RegisterMissingField | requests/app.js:105-148 | A registration body without `username` or `password` gets the missing-fields reply. |
| Handlers.ResetPassword | requests/app.js:88-103 | There is no field validation: the provider call is always made. The answer is 200 `Password Updated` exactly when it succeeded, and a 400 with its error otherwise. |
| Handlers.InvalidBodyIssuesNoCall | requests/app.js:145-216 | When required fields are missing, a handler's answer does not depend on the provider: no call is made. |
| Confirm.ConfirmSignUpHandler | requests/app.js:67-86 | The invocation fails exactly when there are no query parameters. Otherwise the answer is a 301 to `REDIRECT_URI?success=<flag>&userStatus=<status>`. The flag is `true` exactly when the provider confirmed the code, and the status is the incoming one echoed. |
| Confirm.SignUpQueryReadsBack | requests/app.js:80-85 | The redirect query parses back to its two fields in order. |
| Confirm.ConfirmRegistrationAsWritten | requests/app.js:48-65 | As written: without a username or code, the invocation fails. Otherwise the redirect always says `success=true`. The status becomes `NEW_PASSWORD_REQUIRED` when the provider's reply, success or error alike, carries that challenge. |
| Confirm.AsWrittenReportsFailedLoginAsSuccess | requests/app.js:54-64 | When the provider rejects the code, the handler as written redirects with `success=true`, where the intended one says `success=false`. |
| Confirm.AsWrittenRejectsMissingCode | requests/app.js:48-54 | Without a code the handler as written fails, where the intended one redirects with `success=false`. |
| Confirm.ConfirmRegistration | requests/app.js:48-65 | As intended: the invocation fails exactly when there are no query parameters. Otherwise the answer is a 301 to `REDIRECT_URI?success=..&userStatus=..&code=<encoded code>`. `success` is true exactly when a login was attempted and succeeded. The status is `NEW_PASSWORD_REQUIRED` when that successful login answered with the challenge, and the incoming status otherwise. |
| Confirm.AgreeOnSuccessfulLogin | requests/app.js:54-60 | On a login that succeeds, the as-written and the intended handler give the same redirect. |
| Confirm.RegistrationQueryReadsBack | requests/app.js:60-63 | The redirect query parses back to `success`, `userStatus`, `code` in order. |
| Router.RouteOf | requests/app.js:17-45 | A path together with a body selects one of the five body handlers, or `invalid request` for any other path. Otherwise the two confirmation paths are chosen before the `OPTIONS` check, and everything else is `invalid body`. Each route is characterised in both directions. |
| Router.Handle | requests/app.js:13-46 | As written. Each route is answered by its handler, or by 400 `invalid request`, 200 `it's all good` or 400 `invalid body`. `/confirmRegistration` is answered by `confirmRegistration` as written. |
| Router.HandleIntended | requests/app.js:13-46 | Identical to `Router.Handle` on every route except `/confirmRegistration`, which the corrected `confirmRegistration` answers. |
| Router.IntendedAgreesOnSuccessfulLogin | requests/app.js:39-60 | On a confirmation link whose login is attempted and succeeds, the two routers give the same answer. |
| Router.IntendedRejectedOnlyWithoutQuery | requests/app.js:37-72 | With the corrected `confirmRegistration`, the invocation fails only on a confirmation path without query parameters. |
| Router.UnknownPathIsInvalidRequest | requests/app.js:33-35 | A body on any other path gets 400 `{"message":"invalid request"}`, whatever the method or the provider. |
| Router.RejectedOnlyWithoutQuery | requests/app.js:37-72 | The invocation fails exactly on a confirmation path without query parameters, and on `/confirmRegistration` when the query lacks a username or a code. |
| CustomMessage.ParameterNames | custom_message/app.js:53-57 | The three names asked for end in `CognitoHttpApiUrl`, `Subject` and `Message` respectively. Each ends in its own suffix and in neither of the others. |
| CustomMessage.ParameterNamesSpelledOut | custom_message/app.js:54-56 | For any environment whose `DOMAIN` is `<domain>`, the names are `/formkiq/cognito/<domain>/CognitoHttpApiUrl`, then `/formkiq/cognito/<domain>/<trigger>/Subject` and `.../Message`. |
| CustomMessage.FindBySuffix | custom_message/app.js:17-19 | The lookup returns the first parameter whose name ends with the suffix, and nothing when none does. |
| CustomMessage.SelectionPicksRequested | custom_message/app.js:15-19 | For a store answer holding any subset of the requested parameters, in any order, each suffix lookup finds the parameter requested under that suffix exactly when the answer holds it. |
| CustomMessage.LinkQueryReadsBack | custom_message/app.js:28-40 | The link query holds `code`, `username`, `clientId`, `region`, `email` in that order and parses back to them. |
| CustomMessage.SignUpLinkTarget | custom_message/app.js:28 | The sign-up anchor's `href` is `<site URL>/confirmSignUp?` followed by the link query. |
| CustomMessage.ResetLinkTarget | custom_message/app.js:40 | The reset anchor's `href` is `<REDIRECT_URI>/lostpassword?` followed by the same query. |
| CustomMessage.AnchorHref | custom_message/app.js:28-40 | The `href` of a generated anchor reads back. |
| CustomMessage.Compose | custom_message/app.js:30-43 | As written. Only the e-mail subject and message change. The subject is the stored one. The message is the stored one with its first `${link}` replaced by JavaScript's `replace`, which expands `$` patterns in the link. |
| CustomMessage.ComposeIntended | custom_message/app.js:30-43 | As intended. The same as `Compose`, but the link is inserted literally at the first `${link}`. |
| CustomMessage.ComposeWithoutDollar | custom_message/app.js:31-43 | For a link without `$`, the e-mail as written and as intended are the same. |
| CustomMessage.MessageWithoutPlaceholder | custom_message/app.js:31-43 | A stored message without `${link}` is sent unchanged, both as written and as intended. |
| CustomMessage.Handle | custom_message/app.js:11-51 | As written. A store failure fails the invocation. Other triggers get the event back unchanged. The two handled triggers get `Compose` applied with the selected subject, message and link. A missing parameter that a trigger reads fails the invocation, and nothing else does. |
| CustomMessage.HandleIntended | custom_message/app.js:11-51 | As intended. It fails exactly when `Handle` does, and otherwise answers as `Handle` does with `ComposeIntended` in place of `Compose`. |
| CustomMessage.HandleWithoutDollar | custom_message/app.js:28-43 | When the link fields, `REDIRECT_URI` and the stored site URL hold no `$`, the handler as written and as intended give the same event. The stored subject and message may hold any text, `$` included, because `replace` expands only the link. |
| Js.Replace | custom_message/app.js:31-43 | `replace` with a string pattern, as written: the first occurrence is replaced by the replacement after `$$`, `$&`, `` $` `` and `$'` expansion. |
| Js.ReplaceExpandsDollar | custom_message/app.js:31-43 | Two concrete cases where `replace` and literal insertion differ. For the message `${link}` and the link `$$`, `replace` writes `$` where literal insertion writes `$$`. For the message `a ${link} b` and the link `$'`, `replace` writes `a  b b` where literal insertion writes `a $' b`. |
| Js.ReplaceWithoutDollar | custom_message/app.js:31-43 | For a link without `$`, `replace` and the literal replacement agree. |
| Strings.ReplaceFirst | custom_message/app.js:31-43 | The intended replacement: with no occurrence the text is unchanged. Otherwise the text is the prefix before the first occurrence, then the link, then the rest after the placeholder. |
| Query.ParseQueryString | custom_message/app.js:28 | A `k=v&...` query of fields whose keys hold no `=` or `&` and whose values hold no `&` parses back to the same fields. |
| Strings.SplitJoin | custom_message/app.js:28 | Splitting a join at its separator gives the pieces back when no piece holds the separator. |

## Left out

- Random.RandomString: the index of each character is the floor of the exact product of the draw and the alphabet length. JavaScript rounds that product to a double first, so a draw within one rounding step below a multiple of 1/length can pick the next character instead. Strings are sequences of code points, where JavaScript counts `chars.length` and `chars[k]` in UTF-16 code units. The result's length and alphabet are unaffected for the alphabet the source uses. `length` is an integer here; for a `length` that is not a whole number the JavaScript loop runs its ceiling many times, but the only caller passes 10.
- Fields.IsValidFields: a body is a map of its own keys only. Names inherited from `Object.prototype` (`toString`, `constructor`, `valueOf`, ...) read as defined in JavaScript but as missing here. No handler requires such a name, so the handlers are unaffected.
- The identity-provider SDK, the parameter store and S3: their behaviour is a parameter (`Provider`, `Store`), so any answer is allowed. The S3 client is created but never used.
- `JSON.parse` of the request body: a request arrives with its body parsed (`Router.Request.body`). A body that is not valid JSON, which makes the invocation fail, is not modelled.
- The JSON text of provider replies and errors: they are opaque text (`Envelope.ProviderObject.json`), except for the `ChallengeName` property that `confirmRegistration` reads.
- `encodeURIComponent`: a parameter `encode`. Its no-`&` property is assumed where the read-back lemmas require it.
- `Math.random`: a sequence of draws in [0, 1) handed to `Random.RandomString`.
- Handlers.Register: the name of the new group is a parameter. It is the value `Random.RandomString(10, ...)` computes; the draws behind it are not threaded through the handler.
- Console logging, the `callback(null, event)` call and `console.info` of the event: output only.
- `JSON.stringify` of strings with lone surrogates, which ECMA-262 writes as `\u` escapes: strings are sequences of Dafny characters, which cannot hold lone surrogates.
- The `null` value of an event property is not told apart from an absent one: both are `None`, and the text of either in a link is `undefined`. The source would write `null` for the former.
- Event sub-objects (`request`, `callerContext`, `userAttributes`, `response`) are taken to be present: the trigger service always sends them. Their absence, which would throw, is not modelled.
- The build script (`gulpfile.js`) and the deployment templates: not part of the runtime behaviour.
- Operations a fuller deployment of this service offers but that `requests/app.js` does not contain (administrator registration, token refresh, answering challenges, a redirect allow-list, status lookups): the code is followed, and they are not part of this model.

## Findings

| source | as written | input that shows it | evidently intended | confidence | as-written member | corrected member |
|---|---|---|---|---|---|---|
| requests/app.js:54-60 | `login(...)` turns a provider failure into a resolved `response(400, error)`, so the `.then` branch runs and redirects with `success=true` | a query with a username and a wrong code; the provider rejects the login | `success=false` when the login fails | high, not executed | Confirm.ConfirmRegistrationAsWritten, Confirm.AsWrittenReportsFailedLoginAsSuccess | Confirm.ConfirmRegistration |
| requests/app.js:54 | without a username or code, `login(...)` returns a plain object, so `.then` throws and the invocation fails | a confirmation link whose query has no `code` | a redirect with `success=false` | high, not executed | Confirm.ConfirmRegistrationAsWritten, Confirm.AsWrittenRejectsMissingCode | Confirm.ConfirmRegistration |
| custom_message/app.js:31-43 | `message.Value.replace("${link}", link)` expands `$` patterns in the link, and the link holds user-controlled text | a user name or e-mail containing `$'` or `$$` | the link inserted literally | medium, not executed | Js.Replace, Js.ReplaceExpandsDollar | Strings.ReplaceFirst |

`Router.Handle` answers confirmation links with `Confirm.ConfirmRegistrationAsWritten`, and `Router.HandleIntended` with `Confirm.ConfirmRegistration`. `CustomMessage.Compose` inserts the link with `Js.Replace`, and `CustomMessage.ComposeIntended` with `Strings.ReplaceFirst`.

=== FILE: confirm.dfy ===
/** The two redirect handlers of the auth gateway, reached from links in
    e-mails: `confirmSignUp` and `confirmRegistration` (requests/app.js).
    With query parameters, both answer with a 301 to `REDIRECT_URI`, except
    that `confirmRegistration` as written fails when the query lacks the
    username or the code; without query parameters both fail. */
module Confirm {
  import opened Wrappers
  import opened Js
  import opened Fields
  import opened Envelope
  import opened Query
  import opened Handlers

  type QueryParameters = map<string, string>

  /** `event.queryStringParameters[key]`. */
  function Param(q: QueryParameters, key: string): Option<string> {
    if key in q then Some(q[key]) else None
  }

  function Flag(success: bool): string {
    if success then "true" else "false"
  }

  /** `REDIRECT_URI + "?" + k1 + "=" + v1 + "&" + ...`: the redirect base and
      the given query fields in order. */
  function Location(env: Env, fields: seq<Pair>): string {
    ToStr(env.redirectUri) + "?" + QueryString(fields)
  }

  /** The fields of the `confirmSignUp` redirect. */
  function SignUpFields(success: bool, userStatus: string): seq<Pair> {
    [Pair("success", Flag(success)), Pair("userStatus", userStatus)]
  }

  /** The fields of the `confirmRegistration` redirect. */
  function RegistrationFields(success: bool, userStatus: string, code: string): seq<Pair> {
    [Pair("success", Flag(success)), Pair("userStatus", userStatus), Pair("code", code)]
  }

  /** `confirmSignUp`: confirm the code; redirect with the success flag and
      the incoming `userStatus` echoed. A request without query parameters
      throws when they are read. */
  function ConfirmSignUpHandler(env: Env, query: Option<QueryParameters>, provider: Provider): (r: Settled<Response>)
    ensures r.Rejected? <==> query.None?
    ensures r.Resolved? ==>
              var q := query.value;
              var outcome := provider(ConfirmSignUp(env.poolClientId, FromOption(Param(q, "code")), FromOption(Param(q, "username"))));
              && r.value.statusCode == 301 && r.value.body.None?
              && LocationOf(r.value) == Some(Location(env, SignUpFields(outcome.Succeeded?, ToStr(Param(q, "userStatus")))))
  {
    match query
    case None => Rejected
    case Some(q) =>
      var userStatus := Param(q, "userStatus");
      match provider(ConfirmSignUp(env.poolClientId, FromOption(Param(q, "code")), FromOption(Param(q, "username"))))
      case Succeeded(_) =>
        Resolved(Redirect(Location(env, SignUpFields(true, ToStr(userStatus)))))
      case Failed(_) =>
        Resolved(Redirect(Location(env, SignUpFields(false, ToStr(userStatus)))))
  }

  /** The body `confirmRegistration` hands to `login`: the query's username,
      and its code as the password. */
  function Credentials(q: QueryParameters): Object {
    map["username" := FromOption(Param(q, "username")), "password" := FromOption(Param(q, "code"))]
  }

  /** The provider's reply to the login, whichever way it settled: `login`
      turns a failure into a resolved `response(400, error)`, so either one
      is what `JSON.parse(data.body)` reads. */
  function ReplyOf(outcome: Outcome): ProviderObject {
    match outcome
    case Succeeded(d) => d
    case Failed(e) => e
  }

  /** `userStatus` after the challenge check. */
  function StatusAfter(reply: ProviderObject, userStatus: Option<string>): Option<string> {
    if reply.challengeName == Some(NewPasswordRequired) then Some(NewPasswordRequired) else userStatus
  }

  /** `confirmRegistration` as written. Two things differ from its evident
      intent: `login(...)` returns a plain object, not a promise, when the
      username or code is missing, so calling `.then` on it throws; and a
      failed login reaches the `.then` branch as a resolved 400 response,
      so the redirect always says `success=true`. */
  function ConfirmRegistrationAsWritten(env: Env, query: Option<QueryParameters>, provider: Provider, encode: string -> string)
    : (r: Settled<Response>)
    ensures query.Some? && IsValidFields(Credentials(query.value), LoginFields) ==>
              var q := query.value;
              var login := Login(env, Credentials(q), provider);
              && login.body == Some(ReplyOf(provider(LoginCall(env, Credentials(q)))).json)
              && r == Resolved(Redirect(Location(env, RegistrationFields(true,
                        ToStr(StatusAfter(ReplyOf(provider(LoginCall(env, Credentials(q)))), Param(q, "userStatus"))),
                        encode(ToStr(Param(q, "code")))))))
    ensures query.None? || !IsValidFields(Credentials(query.value), LoginFields) ==> r.Rejected?
  {
    match query
    case None => Rejected
    case Some(q) =>
      var creds := Credentials(q);
      if !IsValidFields(creds, LoginFields) then Rejected
      else
        var reply := ReplyOf(provider(LoginCall(env, creds)));
        var userStatus := StatusAfter(reply, Param(q, "userStatus"));
        Resolved(Redirect(Location(env, RegistrationFields(true, ToStr(userStatus), encode(ToStr(Param(q, "code")))))))
  }

  /** `confirmRegistration` as intended: log in with the code as a one-time
      password; on success redirect with `success=true`, taking
      `NEW_PASSWORD_REQUIRED` as the user status when the provider answers
      with that challenge; when the login fails, or cannot be attempted for
      want of a username or code, redirect with `success=false` and the
      incoming user status. The encoded code is always appended. */
  function ConfirmRegistration(env: Env, query: Option<QueryParameters>, provider: Provider, encode: string -> string)
    : (r: Settled<Response>)
    ensures r.Rejected? <==> query.None?
    ensures r.Resolved? ==> r.value.statusCode == 301 && r.value.body.None?
    ensures r.Resolved? ==>
              var q := query.value;
              var attempted := IsValidFields(Credentials(q), LoginFields);
              var outcome := provider(LoginCall(env, Credentials(q)));
              var success := attempted && outcome.Succeeded?;
              var status := if success && outcome.data.challengeName == Some(NewPasswordRequired)
                             then Some(NewPasswordRequired) else Param(q, "userStatus");
              LocationOf(r.value) == Some(Location(env, RegistrationFields(success, ToStr(status), encode(ToStr(Param(q, "code"))))))
  {
    match query
    case None => Rejected
    case Some(q) =>
      var creds := Credentials(q);
      var code := encode(ToStr(Param(q, "code")));
      if !IsValidFields(creds, LoginFields) then
        Resolved(Redirect(Location(env, RegistrationFields(false, ToStr(Param(q, "userStatus")), code))))
      else
        match provider(LoginCall(env, creds))
        case Succeeded(data) =>
          Resolved(Redirect(Location(env, RegistrationFields(true, ToStr(StatusAfter(data, Param(q, "userStatus"))), code))))
        case Failed(_) =>
          Resolved(Redirect(Location(env, RegistrationFields(false, ToStr(Param(q, "userStatus")), code))))
  }

  /** Finding: when the provider rejects the code, the handler as written
      still redirects with `success=true`, where the intended one says
      `success=false`. */
  lemma AsWrittenReportsFailedLoginAsSuccess(env: Env, q: QueryParameters, provider: Provider, encode: string -> string)
    requires IsValidFields(Credentials(q), LoginFields)
    requires provider(LoginCall(env, Credentials(q))).Failed?
    requires provider(LoginCall(env, Credentials(q))).error.challengeName.None?
    ensures ConfirmRegistrationAsWritten(env, Some(q), provider, encode)
            == Resolved(Redirect(Location(env, RegistrationFields(true, ToStr(Param(q, "userStatus")), encode(ToStr(Param(q, "code")))))))
    ensures ConfirmRegistration(env, Some(q), provider, encode)
            == Resolved(Redirect(Location(env, RegistrationFields(false, ToStr(Param(q, "userStatus")), encode(ToStr(Param(q, "code")))))))
  {
  }

  /** Finding: a link without a code makes the handler as written throw,
      where the intended one redirects with `success=false`. */
  lemma AsWrittenRejectsMissingCode(env: Env, q: QueryParameters, provider: Provider, encode: string -> string)
    requires "code" !in q
    ensures ConfirmRegistrationAsWritten(env, Some(q), provider, encode).Rejected?
    ensures ConfirmRegistration(env, Some(q), provider, encode)
            == Resolved(Redirect(Location(env, RegistrationFields(false, ToStr(Param(q, "userStatus")), encode("undefined")))))
  {
    assert !IsDefined(Get(Credentials(q), "password"));
    MissingFieldFails(Credentials(q), LoginFields, "password");
  }

  /** The two agree whenever the login is attempted and succeeds. */
  lemma AgreeOnSuccessfulLogin(env: Env, q: QueryParameters, provider: Provider, encode: string -> string)
    requires IsValidFields(Credentials(q), LoginFields)
    requires provider(LoginCall(env, Credentials(q))).Succeeded?
    ensures ConfirmRegistrationAsWritten(env, Some(q), provider, encode) == ConfirmRegistration(env, Some(q), provider, encode)
  {
  }

  /** The redirect query reads back as its three fields in order, provided
      the user status and the encoded code hold no `&` (which
      `encodeURIComponent` never writes). */
  lemma RegistrationQueryReadsBack(success: bool, userStatus: string, code: string)
    requires '&' !in userStatus && '&' !in code
    ensures ParseQuery(QueryString(RegistrationFields(success, userStatus, code)))
            == [Pair("success", Flag(success)), Pair("userStatus", userStatus), Pair("code", code)]
  {
    ParseQueryString(RegistrationFields(success, userStatus, code));
  }

  /** Likewise for the two fields of the `confirmSignUp` redirect. */
  lemma SignUpQueryReadsBack(success: bool, userStatus: string)
    requires '&' !in userStatus
    ensures ParseQuery(QueryString(SignUpFields(success, userStatus)))
            == [Pair("success", Flag(success)), Pair("userStatus", userStatus)]
  {
    ParseQueryString(SignUpFields(success, userStatus));
  }
}

=== FILE: custom_message.dfy ===
/** The custom-message trigger (custom_message/app.js): fetch the stored
    subject, message and site URL from the parameter store, and for the
    sign-up and forgot-password triggers write an e-mail whose `${link}`
    placeholder is replaced by a verification or reset link. */
module CustomMessage {
  import opened Wrappers
  import opened Js
  import opened Strings
  import opened Query

  const SignUpTrigger := "CustomMessage_SignUp"
  const ForgotPasswordTrigger := "CustomMessage_ForgotPassword"
  const ParameterRoot := "/formkiq/cognito/"
  const UrlSuffix := "CognitoHttpApiUrl"
  const SubjectSuffix := "Subject"
  const MessageSuffix := "Message"
  const LinkPlaceholder := "${link}"
  const Suffixes := [UrlSuffix, SubjectSuffix, MessageSuffix]

  /** `process.env.DOMAIN` and `process.env.REDIRECT_URI`. */
  datatype Env = Env(domain: Option<string>, redirectUri: Option<string>)

  /** One entry of `data.Parameters`. */
  datatype Parameter = Parameter(name: string, value: string)

  /** How `ssm.getParameters` settles: the parameters found (in the
      store's order, possibly fewer than asked for), or a failure. */
  datatype StoreReply = Found(parameters: seq<Parameter>) | StoreFailed

  /** The parameter store, given the names asked for. */
  type Store = seq<string> -> StoreReply

  datatype CallerContext = CallerContext(clientId: Option<string>)
  datatype MessageRequest = MessageRequest(codeParameter: Option<string>, userAttributes: map<string, string>)
  datatype MessageResponse = MessageResponse(
    smsMessage: Option<string>,
    emailMessage: Option<string>,
    emailSubject: Option<string>)

  /** The trigger event, with the properties the handler reads and writes. */
  datatype Event = Event(
    triggerSource: Option<string>,
    userName: Option<string>,
    region: Option<string>,
    callerContext: CallerContext,
    request: MessageRequest,
    response: MessageResponse)

  /** The names `getParameter` asks for. */
  function ParameterNames(env: Env, triggerSource: Option<string>): (names: seq<string>)
    ensures Distinguished(names, Suffixes)
  {
    var base := ParameterRoot + ToStr(env.domain) + "/";
    var kind := base + ToStr(triggerSource) + "/";
    var names := [base + UrlSuffix, kind + SubjectSuffix, kind + MessageSuffix];
    SuffixesTellApart(base, kind);
    names
  }

  /** The three suffixes end in different characters, so each requested
      name ends with exactly one of them. */
  lemma SuffixesTellApart(base: string, kind: string)
    ensures EndsWith(base + UrlSuffix, UrlSuffix)
    ensures !EndsWith(base + UrlSuffix, SubjectSuffix) && !EndsWith(base + UrlSuffix, MessageSuffix)
    ensures EndsWith(kind + SubjectSuffix, SubjectSuffix)
    ensures !EndsWith(kind + SubjectSuffix, UrlSuffix) && !EndsWith(kind + SubjectSuffix, MessageSuffix)
    ensures EndsWith(kind + MessageSuffix, MessageSuffix)
    ensures !EndsWith(kind + MessageSuffix, UrlSuffix) && !EndsWith(kind + MessageSuffix, SubjectSuffix)
  {
    EndsWithAppended(base, UrlSuffix);
    EndsWithAppended(kind, SubjectSuffix);
    EndsWithAppended(kind, MessageSuffix);
    DifferentLastChar(base + UrlSuffix, UrlSuffix, SubjectSuffix);
    DifferentLastChar(base + UrlSuffix, UrlSuffix, MessageSuffix);
    DifferentLastChar(kind + SubjectSuffix, SubjectSuffix, UrlSuffix);
    DifferentLastChar(kind + SubjectSuffix, SubjectSuffix, MessageSuffix);
    DifferentLastChar(kind + MessageSuffix, MessageSuffix, UrlSuffix);
    DifferentLastChar(kind + MessageSuffix, MessageSuffix, SubjectSuffix);
  }

  lemma DifferentLastChar(s: string, a: string, b: string)
    requires |a| > 0 && |b| > 0 && a[|a| - 1] != b[|b| - 1]
    requires EndsWith(s, a)
    ensures !EndsWith(s, b)
  {
    LastCharOfSuffix(s, a);
    if EndsWith(s, b) {
      LastCharOfSuffix(s, b);
    }
  }

  /** `parameters.find(o => o.Name.endsWith(suffix))`: the first parameter
      whose name ends with `suffix`. */
  function FindBySuffix(parameters: seq<Parameter>, suffix: string): (r: Option<Parameter>)
    ensures r.None? <==> forall i :: 0 <= i < |parameters| ==> !EndsWith(parameters[i].name, suffix)
    ensures r.Some? ==> exists i :: 0 <= i < |parameters| && parameters[i] == r.value
                                    && EndsWith(parameters[i].name, suffix)
                                    && forall j :: 0 <= j < i ==> !EndsWith(parameters[j].name, suffix)
    decreases |parameters|
  {
    if |parameters| == 0 then None
    else if EndsWith(parameters[0].name, suffix) then Some(parameters[0])
    else
      var r := FindBySuffix(parameters[1..], suffix);
      assert r.Some? ==> exists i :: 0 <= i < |parameters| && parameters[i] == r.value
                                     && EndsWith(parameters[i].name, suffix)
                                     && forall j :: 0 <= j < i ==> !EndsWith(parameters[j].name, suffix) by {
        if r.Some? {
          var k :| 0 <= k < |parameters[1..]| && parameters[1..][k] == r.value
                   && EndsWith(parameters[1..][k].name, suffix)
                   && forall j :: 0 <= j < k ==> !EndsWith(parameters[1..][j].name, suffix);
          assert parameters[k + 1] == r.value;
          forall j | 0 <= j < k + 1 ensures !EndsWith(parameters[j].name, suffix) {
            if j > 0 { assert parameters[j] == parameters[1..][j - 1]; }
          }
        }
      }
      assert r.None? ==> forall i :: 0 <= i < |parameters| ==> !EndsWith(parameters[i].name, suffix) by {
        if r.None? {
          forall i | 0 <= i < |parameters| ensures !EndsWith(parameters[i].name, suffix) {
            if i > 0 { assert parameters[i] == parameters[1..][i - 1]; }
          }
        }
      }
      r
  }

  /** The query fields of both links, in their fixed order. */
  function LinkFields(e: Event): seq<Pair> {
    [ Pair("code", ToStr(e.request.codeParameter)),
      Pair("username", ToStr(e.userName)),
      Pair("clientId", ToStr(e.callerContext.clientId)),
      Pair("region", ToStr(e.region)),
      Pair("email", ToStr(if "email" in e.request.userAttributes then Some(e.request.userAttributes["email"]) else None)) ]
  }

  /** `<a href="..." target="_blank">...</a>`. */
  function Anchor(href: string, text: string): string {
    "<a href=\"" + href + "\" target=\"_blank\">" + text + "</a>"
  }

  const AnchorOpen := "<a href=\""

  /** The `href` of an anchor that starts `<a href="`: the text up to the
      next double quote. */
  function HrefOf(a: string): Option<string> {
    if |AnchorOpen| <= |a| && a[..|AnchorOpen|] == AnchorOpen then
      var rest := a[|AnchorOpen|..];
      match IndexOf(rest, "\"", 0)
      case None => None
      case Some(i) => Some(rest[..i])
    else None
  }

  /** An anchor's `href` reads back, when it holds no double quote. */
  lemma AnchorHref(href: string, text: string)
    requires '"' !in href
    ensures HrefOf(Anchor(href, text)) == Some(href)
  {
    var a := Anchor(href, text);
    assert a == AnchorOpen + (href + "\" target=\"_blank\">" + text + "</a>");
    var rest := a[|AnchorOpen|..];
    assert rest == href + "\" target=\"_blank\">" + text + "</a>";
    assert OccursAt(rest, "\"", |href|) by {
      assert rest[|href|..|href| + 1] == [rest[|href|]];
    }
    var found := IndexOf(rest, "\"", 0);
    assert found.Some?;
    var i := found.value;
    assert rest[i..i + 1] == "\"";
    assert rest[i] == '"' by { assert rest[i..i + 1][0] == rest[i]; }
    assert forall k :: 0 <= k < |href| ==> rest[k] == href[k];
    assert i == |href|;
    assert rest[..i] == href;
  }

  /** The verification link of the sign-up e-mail, based at the stored site URL. */
  function SignUpLink(url: string, e: Event): string {
    Anchor(url + "/confirmSignUp?" + QueryString(LinkFields(e)), "Click this link to verify")
  }

  /** The reset link of the forgot-password e-mail, based at `REDIRECT_URI`. */
  function ResetLink(env: Env, e: Event): string {
    Anchor(ToStr(env.redirectUri) + "/lostpassword?" + QueryString(LinkFields(e)), "Click this link to Reset Password")
  }

  /** The e-mail the handled triggers write, as written: the stored
      subject, and the stored message with its first `${link}` replaced by
      JavaScript's `replace`, which expands `$` patterns in the link. */
  function Compose(e: Event, subject: string, message: string, link: string): (r: Event)
    ensures r.(response := e.response) == e
    ensures r.response.smsMessage == e.response.smsMessage
    ensures r.response.emailSubject == Some(subject)
    ensures r.response.emailMessage == Some(Replace(message, LinkPlaceholder, link))
  {
    e.(response := e.response.(emailSubject := Some(subject), emailMessage := Some(Replace(message, LinkPlaceholder, link))))
  }

  /** The e-mail as intended: the link is inserted literally. */
  function ComposeIntended(e: Event, subject: string, message: string, link: string): (r: Event)
    ensures r.(response := e.response) == e
    ensures r.response.smsMessage == e.response.smsMessage
    ensures r.response.emailSubject == Some(subject)
    ensures r.response.emailMessage == Some(ReplaceFirst(message, LinkPlaceholder, link))
  {
    e.(response := e.response.(emailSubject := Some(subject), emailMessage := Some(ReplaceFirst(message, LinkPlaceholder, link))))
  }

  /** The two agree on a link without a dollar sign. */
  lemma ComposeWithoutDollar(e: Event, subject: string, message: string, link: string)
    requires '$' !in link
    ensures Compose(e, subject, message, link) == ComposeIntended(e, subject, message, link)
  {
    ReplaceWithoutDollar(message, LinkPlaceholder, link);
  }

  /** `lambdaHandler`. Reading `.Value` of a parameter the store did not
      return throws, so the invocation fails. */
  function Handle(env: Env, event: Event, store: Store): (r: Settled<Event>)
    ensures store(ParameterNames(env, event.triggerSource)).StoreFailed? ==> r.Rejected?
    ensures store(ParameterNames(env, event.triggerSource)).Found?
            && event.triggerSource != Some(SignUpTrigger) && event.triggerSource != Some(ForgotPasswordTrigger)
            ==> r == Resolved(event)
    ensures r.Resolved? ==> r.value.(response := event.response) == event
    ensures r.Resolved? && event.triggerSource == Some(SignUpTrigger) ==>
              var ps := store(ParameterNames(env, event.triggerSource)).parameters;
              && FindBySuffix(ps, UrlSuffix).Some?
              && FindBySuffix(ps, SubjectSuffix).Some?
              && FindBySuffix(ps, MessageSuffix).Some?
              && r.value == Compose(event, FindBySuffix(ps, SubjectSuffix).value.value, FindBySuffix(ps, MessageSuffix).value.value,
                                    SignUpLink(FindBySuffix(ps, UrlSuffix).value.value, event))
    ensures r.Resolved? && event.triggerSource == Some(ForgotPasswordTrigger) ==>
              var ps := store(ParameterNames(env, event.triggerSource)).parameters;
              && FindBySuffix(ps, SubjectSuffix).Some?
              && FindBySuffix(ps, MessageSuffix).Some?
              && r.value == Compose(event, FindBySuffix(ps, SubjectSuffix).value.value, FindBySuffix(ps, MessageSuffix).value.value,
                                    ResetLink(env, event))
    ensures r.Rejected? && store(ParameterNames(env, event.triggerSource)).Found? ==>
              var ps := store(ParameterNames(env, event.triggerSource)).parameters;
              || (event.triggerSource == Some(SignUpTrigger) && FindBySuffix(ps, UrlSuffix).None?)
              || ((event.triggerSource == Some(SignUpTrigger) || event.triggerSource == Some(ForgotPasswordTrigger))
                  && (FindBySuffix(ps, SubjectSuffix).None? || FindBySuffix(ps, MessageSuffix).None?))
  {
    HandleWith(env, event, store, false)
  }

  /** `lambdaHandler` with the intended, literal insertion of the link. */
  function HandleIntended(env: Env, event: Event, store: Store): (r: Settled<Event>)
    ensures store(ParameterNames(env, event.triggerSource)).StoreFailed? ==> r.Rejected?
    ensures store(ParameterNames(env, event.triggerSource)).Found?
            && event.triggerSource != Some(SignUpTrigger) && event.triggerSource != Some(ForgotPasswordTrigger)
            ==> r == Resolved(event)
    ensures r.Resolved? ==> r.value.(response := event.response) == event
    ensures r.Rejected? <==> Handle(env, event, store).Rejected?
    ensures r.Resolved? && event.triggerSource == Some(SignUpTrigger) ==>
              var ps := store(ParameterNames(env, event.triggerSource)).parameters;
              && FindBySuffix(ps, UrlSuffix).Some?
              && FindBySuffix(ps, SubjectSuffix).Some?
              && FindBySuffix(ps, MessageSuffix).Some?
              && r.value == ComposeIntended(event, FindBySuffix(ps, SubjectSuffix).value.value, FindBySuffix(ps, MessageSuffix).value.value,
                                    SignUpLink(FindBySuffix(ps, UrlSuffix).value.value, event))
    ensures r.Resolved? && event.triggerSource == Some(ForgotPasswordTrigger) ==>
              var ps := store(ParameterNames(env, event.triggerSource)).parameters;
              && FindBySuffix(ps, SubjectSuffix).Some?
              && FindBySuffix(ps, MessageSuffix).Some?
              && r.value == ComposeIntended(event, FindBySuffix(ps, SubjectSuffix).value.value, FindBySuffix(ps, MessageSuffix).value.value,
                                    ResetLink(env, event))
    ensures r.Rejected? && store(ParameterNames(env, event.triggerSource)).Found? ==>
              var ps := store(ParameterNames(env, event.triggerSource)).parameters;
              || (event.triggerSource == Some(SignUpTrigger) && FindBySuffix(ps, UrlSuffix).None?)
              || ((event.triggerSource == Some(SignUpTrigger) || event.triggerSource == Some(ForgotPasswordTrigger))
                  && (FindBySuffix(ps, SubjectSuffix).None? || FindBySuffix(ps, MessageSuffix).None?))
  {
    HandleWith(env, event, store, true)
  }

  function ComposeBy(intended: bool, e: Event, subject: string, message: string, link: string): Event {
    if intended then ComposeIntended(e, subject, message, link) else Compose(e, subject, message, link)
  }

  /** The body of `lambdaHandler`, composing as written or as intended. */
  function HandleWith(env: Env, event: Event, store: Store, intended: bool): Settled<Event>
  {
    match store(ParameterNames(env, event.triggerSource))
    case StoreFailed => Rejected
    case Found(ps) =>
      var url := FindBySuffix(ps, UrlSuffix);
      var subject := FindBySuffix(ps, SubjectSuffix);
      var message := FindBySuffix(ps, MessageSuffix);
      if event.triggerSource == Some(SignUpTrigger) then
        if url.None? || subject.None? || message.None? then Rejected
        else Resolved(ComposeBy(intended, event, subject.value.value, message.value.value, SignUpLink(url.value.value, event)))
      else if event.triggerSource == Some(ForgotPasswordTrigger) then
        if subject.None? || message.None? then Rejected
        else Resolved(ComposeBy(intended, event, subject.value.value, message.value.value, ResetLink(env, event)))
      else Resolved(event)
  }

  /** When exactly the parameters named `name` end with `suffix`, the
      lookup by suffix finds one of those, if there is one. */
  lemma FindByUniqueSuffix(ps: seq<Parameter>, suffix: string, name: string)
    requires forall i :: 0 <= i < |ps| ==> (EndsWith(ps[i].name, suffix) <==> ps[i].name == name)
    ensures FindBySuffix(ps, suffix).Some? <==> exists i :: 0 <= i < |ps| && ps[i].name == name
    ensures FindBySuffix(ps, suffix).Some? ==> FindBySuffix(ps, suffix).value.name == name
  {
    var r := FindBySuffix(ps, suffix);
    if r.None? {
      assert forall i :: 0 <= i < |ps| ==> ps[i].name != name;
    } else {
      var i :| 0 <= i < |ps| && ps[i] == r.value && EndsWith(ps[i].name, suffix);
    }
  }

  /** Three names, the k-th ending with the k-th suffix and with no other. */
  predicate Distinguished(names: seq<string>, suffixes: seq<string>) {
    && |names| == 3 && |suffixes| == 3
    && forall k, l :: 0 <= k < 3 && 0 <= l < 3 ==> (EndsWith(names[k], suffixes[l]) <==> k == l)
  }

  /** Answered with parameters among `names`, the lookup by the k-th suffix
      picks the k-th name, and finds it when the answer holds it. */
  lemma SelectionPicks(names: seq<string>, suffixes: seq<string>, ps: seq<Parameter>, k: nat)
    requires Distinguished(names, suffixes) && k < 3
    requires forall i :: 0 <= i < |ps| ==> ps[i].name in names
    ensures FindBySuffix(ps, suffixes[k]).Some? <==> exists i :: 0 <= i < |ps| && ps[i].name == names[k]
    ensures FindBySuffix(ps, suffixes[k]).Some? ==> FindBySuffix(ps, suffixes[k]).value.name == names[k]
  {
    forall i | 0 <= i < |ps|
      ensures EndsWith(ps[i].name, suffixes[k]) <==> ps[i].name == names[k]
    {
      var l :| 0 <= l < 3 && ps[i].name == names[l];
      assert EndsWith(names[l], suffixes[k]) <==> l == k;
    }
    FindByUniqueSuffix(ps, suffixes[k], names[k]);
  }

  /** When the store answers with parameters it was asked for (in any
      order, any of them missing), each lookup by suffix picks the one
      requested under that suffix, and finds it when it is there. */
  lemma SelectionPicksRequested(env: Env, triggerSource: Option<string>, ps: seq<Parameter>)
    requires forall i :: 0 <= i < |ps| ==> ps[i].name in ParameterNames(env, triggerSource)
    ensures var names := ParameterNames(env, triggerSource);
            && (FindBySuffix(ps, UrlSuffix).Some? <==> exists i :: 0 <= i < |ps| && ps[i].name == names[0])
            && (FindBySuffix(ps, SubjectSuffix).Some? <==> exists i :: 0 <= i < |ps| && ps[i].name == names[1])
            && (FindBySuffix(ps, MessageSuffix).Some? <==> exists i :: 0 <= i < |ps| && ps[i].name == names[2])
            && (FindBySuffix(ps, UrlSuffix).Some? ==> FindBySuffix(ps, UrlSuffix).value.name == names[0])
            && (FindBySuffix(ps, SubjectSuffix).Some? ==> FindBySuffix(ps, SubjectSuffix).value.name == names[1])
            && (FindBySuffix(ps, MessageSuffix).Some? ==> FindBySuffix(ps, MessageSuffix).value.name == names[2])
  {
    var names := ParameterNames(env, triggerSource);
    SelectionPicks(names, Suffixes, ps, 0);
    SelectionPicks(names, Suffixes, ps, 1);
    SelectionPicks(names, Suffixes, ps, 2);
  }

  /** The link's query reads back as its five fields in order, when none of
      them holds an `&`. */
  lemma LinkQueryReadsBack(e: Event)
    requires forall i :: 0 <= i < |LinkFields(e)| ==> '&' !in LinkFields(e)[i].value
    ensures ParseQuery(QueryString(LinkFields(e))) == LinkFields(e)
    ensures |LinkFields(e)| == 5
    ensures LinkFields(e)[0].key == "code" && LinkFields(e)[1].key == "username" && LinkFields(e)[2].key == "clientId"
            && LinkFields(e)[3].key == "region" && LinkFields(e)[4].key == "email"
  {
    ParseQueryString(LinkFields(e));
  }

  /** A stored message without the placeholder is sent unchanged. */
  lemma MessageWithoutPlaceholder(e: Event, subject: string, message: string, link: string)
    requires forall i: nat :: !OccursAt(message, LinkPlaceholder, i)
    ensures Compose(e, subject, message, link).response.emailMessage == Some(message)
    ensures ComposeIntended(e, subject, message, link).response.emailMessage == Some(message)
  {
    assert IndexOf(message, LinkPlaceholder, 0).None?;
  }

  /** The names asked for, spelled out for a deployment domain and a trigger. */
  lemma ParameterNamesSpelledOut(env: Env, domain: string, triggerSource: string)
    requires env.domain == Some(domain)
    ensures ParameterNames(env, Some(triggerSource))
            == [ "/formkiq/cognito/" + domain + "/CognitoHttpApiUrl",
                 "/formkiq/cognito/" + domain + "/" + triggerSource + "/Subject",
                 "/formkiq/cognito/" + domain + "/" + triggerSource + "/Message" ]
  {
    var base := ParameterRoot + domain + "/";
    var kind := base + triggerSource + "/";
    assert "/CognitoHttpApiUrl" == "/" + UrlSuffix;
    assert base + UrlSuffix == ParameterRoot + domain + ("/" + UrlSuffix);
    assert "/Subject" == "/" + SubjectSuffix;
    assert kind + SubjectSuffix == ParameterRoot + domain + "/" + triggerSource + ("/" + SubjectSuffix);
    assert "/Message" == "/" + MessageSuffix;
    assert kind + MessageSuffix == ParameterRoot + domain + "/" + triggerSource + ("/" + MessageSuffix);
  }

  /** The sign-up link points at `/confirmSignUp` under the stored site URL,
      with the link fields as its query. */
  lemma SignUpLinkTarget(url: string, e: Event)
    requires '"' !in url && forall i :: 0 <= i < |LinkFields(e)| ==> '"' !in LinkFields(e)[i].value
    ensures HrefOf(SignUpLink(url, e)) == Some(url + "/confirmSignUp?" + QueryString(LinkFields(e)))
  {
    AbsentFromQuery(LinkFields(e), '"');
    AbsentFromConcat(url, "/confirmSignUp?", QueryString(LinkFields(e)), '"');
    AnchorHref(url + "/confirmSignUp?" + QueryString(LinkFields(e)), "Click this link to verify");
  }

  /** The reset link points at `/lostpassword` under `REDIRECT_URI`, with
      the same fields as its query. */
  lemma ResetLinkTarget(env: Env, e: Event)
    requires '"' !in ToStr(env.redirectUri) && forall i :: 0 <= i < |LinkFields(e)| ==> '"' !in LinkFields(e)[i].value
    ensures HrefOf(ResetLink(env, e)) == Some(ToStr(env.redirectUri) + "/lostpassword?" + QueryString(LinkFields(e)))
  {
    AbsentFromQuery(LinkFields(e), '"');
    AbsentFromConcat(ToStr(env.redirectUri), "/lostpassword?", QueryString(LinkFields(e)), '"');
    AnchorHref(ToStr(env.redirectUri) + "/lostpassword?" + QueryString(LinkFields(e)), "Click this link to Reset Password");
  }

  lemma AbsentFromConcat(a: string, b: string, d: string, c: char)
    requires c !in a && c !in b && c !in d
    ensures c !in a + b + d
  {
  }

  /** A query of link fields whose values lack a quote (or a dollar sign)
      lacks it too: the keys and separators hold neither. */
  lemma AbsentFromQuery(fs: seq<Pair>, c: char)
    requires c == '"' || c == '$'
    requires |fs| == 5
    requires forall i :: 0 <= i < 5 ==> c !in fs[i].value
    requires fs[0].key == "code" && fs[1].key == "username" && fs[2].key == "clientId"
             && fs[3].key == "region" && fs[4].key == "email"
    ensures c !in QueryString(fs)
  {
    var texts := FieldTexts(fs);
    forall i | 0 <= i < |texts| ensures c !in texts[i] {
      assert texts[i] == fs[i].key + "=" + fs[i].value;
      assert c !in fs[i].key;
    }
    NoSeparatorInJoin(texts, '&', c);
  }

  /** An anchor around dollar-free text holds no dollar sign. */
  lemma AnchorWithoutDollar(href: string, text: string)
    requires '$' !in href && '$' !in text
    ensures '$' !in Anchor(href, text)
  {
  }

  lemma SignUpLinkWithoutDollar(url: string, e: Event)
    requires '$' !in url && forall i :: 0 <= i < |LinkFields(e)| ==> '$' !in LinkFields(e)[i].value
    ensures '$' !in SignUpLink(url, e)
  {
    AbsentFromQuery(LinkFields(e), '$');
    AbsentFromConcat(url, "/confirmSignUp?", QueryString(LinkFields(e)), '$');
    AnchorWithoutDollar(url + "/confirmSignUp?" + QueryString(LinkFields(e)), "Click this link to verify");
  }

  lemma ResetLinkWithoutDollar(env: Env, e: Event)
    requires '$' !in ToStr(env.redirectUri) && forall i :: 0 <= i < |LinkFields(e)| ==> '$' !in LinkFields(e)[i].value
    ensures '$' !in ResetLink(env, e)
  {
    AbsentFromQuery(LinkFields(e), '$');
    AbsentFromConcat(ToStr(env.redirectUri), "/lostpassword?", QueryString(LinkFields(e)), '$');
    AnchorWithoutDollar(ToStr(env.redirectUri) + "/lostpassword?" + QueryString(LinkFields(e)), "Click this link to Reset Password");
  }

  /** Dollar-free links: the handler as written and as intended agree.
      Only the link is expanded by `replace`, so the stored subject and
      message may hold any text. */
  lemma HandleWithoutDollar(env: Env, event: Event, store: Store)
    requires forall i :: 0 <= i < |LinkFields(event)| ==> '$' !in LinkFields(event)[i].value
    requires '$' !in ToStr(env.redirectUri)
    requires store(ParameterNames(env, event.triggerSource)).Found?
             && FindBySuffix(store(ParameterNames(env, event.triggerSource)).parameters, UrlSuffix).Some? ==>
               '$' !in FindBySuffix(store(ParameterNames(env, event.triggerSource)).parameters, UrlSuffix).value.value
    ensures HandleIntended(env, event, store) == Handle(env, event, store)
  {
    assert HandleIntended(env, event, store) == HandleWith(env, event, store, true);
    assert Handle(env, event, store) == HandleWith(env, event, store, false);
    var reply := store(ParameterNames(env, event.triggerSource));
    if reply.Found? {
      var ps := reply.parameters;
      var url := FindBySuffix(ps, UrlSuffix);
      var subject := FindBySuffix(ps, SubjectSuffix);
      var message := FindBySuffix(ps, MessageSuffix);
      if event.triggerSource == Some(SignUpTrigger) && url.Some? && subject.Some? && message.Some? {
        SignUpLinkWithoutDollar(url.value.value, event);
        ComposeWithoutDollar(event, subject.value.value, message.value.value, SignUpLink(url.value.value, event));
      } else if event.triggerSource == Some(ForgotPasswordTrigger) && subject.Some? && message.Some? {
        ResetLinkWithoutDollar(env, event);
        ComposeWithoutDollar(event, subject.value.value, message.value.value, ResetLink(env, event));
      }
    }
  }

}

=== FILE: envelope.dfy ===
/** The response envelope of the auth gateway (`response` in
    requests/app.js): a redirect for status 301, a JSON body otherwise. */
module Envelope {
  import opened Wrappers
  import opened Json

  /** A reply object of the identity provider: its JSON text, and the
      `ChallengeName` property that parsing that text back exposes. */
  datatype ProviderObject = ProviderObject(challengeName: Option<string>, json: string)

  /** What a handler hands to `response` as its second argument. */
  datatype Payload =
    | Text(text: string)               // a string: a redirect location
    | Message(message: string)         // the object literal `{message: ...}`
    | Provided(reply: ProviderObject)  // a provider reply or error, passed through

  datatype Headers = Headers(location: Payload)

  /** `{statusCode, headers: {Location}}` or `{statusCode, body}`; a field the
      object does not have is `None`. */
  datatype Response = Response(statusCode: int, headers: Option<Headers>, body: Option<string>)

  const Redirection: int := 301

  /** `JSON.stringify(message)`. Provider objects carry their own JSON text. */
  function Stringify(p: Payload): string {
    match p
    case Text(t) => Quote(t)
    case Message(m) => "{\"message\":" + Quote(m) + "}"
    case Provided(o) => o.json
  }

  /** `response(statusCode, message)`. */
  function Respond(statusCode: int, message: Payload): (r: Response)
    ensures r.statusCode == statusCode
    ensures r.headers.Some? <==> statusCode == Redirection
    ensures r.body.Some? <==> statusCode != Redirection
    ensures r.headers.Some? ==> r.headers.value.location == message
    ensures r.body.Some? ==> r.body.value == Stringify(message)
  {
    if statusCode == Redirection then Response(statusCode, Some(Headers(message)), None)
    else Response(statusCode, None, Some(Stringify(message)))
  }

  /** `response(301, location)`. */
  function Redirect(location: string): Response {
    Respond(Redirection, Text(location))
  }

  /** `response(statusCode, {message: text})`. */
  function Reply(statusCode: int, text: string): Response {
    Respond(statusCode, Message(text))
  }

  /** The Location header of a response, when it has one holding a string. */
  function LocationOf(r: Response): Option<string> {
    if r.headers.Some? && r.headers.value.location.Text? then Some(r.headers.value.location.text) else None
  }

  const BodyPrefix := "{\"message\":\""
  const BodySuffix := "\"}"

  /** `JSON.parse(body).message` for a body of the form `{"message":"..."}`. */
  function ReadMessage(body: string): Option<string> {
    if |BodyPrefix| + |BodySuffix| <= |body|
       && body[..|BodyPrefix|] == BodyPrefix
       && body[|body| - |BodySuffix|..] == BodySuffix
    then Unescape(body[|BodyPrefix|..|body| - |BodySuffix|])
    else None
  }

  /** A redirect carries exactly its location and no body. */
  lemma RedirectShape(location: string)
    ensures Redirect(location).statusCode == 301
    ensures LocationOf(Redirect(location)) == Some(location)
    ensures Redirect(location).body.None?
  {
  }

  /** Any other status carries a body from which the message reads back,
      and no headers. */
  lemma ReplyShape(statusCode: int, text: string)
    requires statusCode != 301
    ensures Reply(statusCode, text).statusCode == statusCode
    ensures Reply(statusCode, text).headers.None?
    ensures Reply(statusCode, text).body.Some?
    ensures ReadMessage(Reply(statusCode, text).body.value) == Some(text)
  {
    var b := Reply(statusCode, text).body.value;
    assert b == BodyPrefix + Escape(text) + BodySuffix;
    assert b[..|BodyPrefix|] == BodyPrefix;
    assert b[|b| - |BodySuffix|..] == BodySuffix;
    assert b[|BodyPrefix|..|b| - |BodySuffix|] == Escape(text);
    UnescapeEscape(text);
  }

  /** A message of plain characters appears verbatim between the quotes. */
  lemma PlainReplyBody(statusCode: int, text: string)
    requires statusCode != 301
    requires AllPlain(text)
    ensures Reply(statusCode, text).body == Some(BodyPrefix + text + BodySuffix)
  {
    EscapePlain(text);
    assert BodyPrefix == "{\"message\":" + "\"";
    assert BodySuffix == "\"" + "}";
    assert Stringify(Message(text)) == BodyPrefix + text + BodySuffix;
  }
}

=== FILE: fields.dfy ===
/** Required-field validation of a parsed request body (`isValidFields`). */
module Fields {
  import opened Js

  /** True when every name in `required` maps to a value other than
      `undefined`; `""`, `null`, `false`, `0` and `[]` all count as present. */
  function IsValidFields(obj: Object, required: seq<string>): (valid: bool)
    ensures valid <==> forall i :: 0 <= i < |required| ==> IsDefined(Get(obj, required[i]))
    decreases |required|
  {
    if |required| == 0 then true
    else IsDefined(Get(obj, required[0])) && IsValidFields(obj, required[1..])
  }

  /** Validity depends only on the set of names required, not their order or repetition. */
  lemma ValidityIgnoresOrder(obj: Object, a: seq<string>, b: seq<string>)
    requires forall x :: x in a <==> x in b
    ensures IsValidFields(obj, a) == IsValidFields(obj, b)
  {
    if IsValidFields(obj, a) {
      forall i | 0 <= i < |b| ensures IsDefined(Get(obj, b[i])) {
        assert b[i] in a;
      }
    }
    if IsValidFields(obj, b) {
      forall i | 0 <= i < |a| ensures IsDefined(Get(obj, a[i])) {
        assert a[i] in b;
      }
    }
  }

  /** One missing name is enough to fail. */
  lemma MissingFieldFails(obj: Object, required: seq<string>, name: string)
    requires name in required && !IsDefined(Get(obj, name))
    ensures !IsValidFields(obj, required)
  {
    var i :| 0 <= i < |required| && required[i] == name;
  }
}

=== FILE: handlers.dfy ===
/** The operation handlers of the auth gateway (requests/app.js): field
    validation, the identity-provider call each one issues, and the mapping
    of the call's outcome to a response. */
module Handlers {
  import opened Wrappers
  import opened Js
  import opened Fields
  import opened Envelope
  import opened Query

  /** The environment variables the handlers read. */
  datatype Env = Env(poolClientId: Option<string>, userPoolId: Option<string>, redirectUri: Option<string>)

  /** A request to the identity provider, with the parameters the handler fills in. */
  datatype Call =
    | SignUp(clientId: Option<string>, password: Value, username: Value)
    | CreateGroup(groupName: string, userPoolId: Option<string>)
    | AdminAddUserToGroup(groupName: string, userPoolId: Option<string>, username: Value)
    | InitiateAuth(authFlow: string, clientId: Option<string>, username: Value, password: Value)
    | ChangePassword(previousPassword: Value, proposedPassword: Value, accessToken: Value)
    | ForgotPassword(clientId: Option<string>, username: Value)
    | ConfirmForgotPassword(clientId: Option<string>, code: Value, username: Value, password: Value)
    | ConfirmSignUp(clientId: Option<string>, code: Value, username: Value)

  /** How a provider call settles. */
  datatype Outcome = Succeeded(data: ProviderObject) | Failed(error: ProviderObject)

  /** The identity provider, as seen by one invocation. */
  type Provider = Call -> Outcome

  const RegisterFields := ["username", "password"]
  const LoginFields := ["username", "password"]
  const ChangePasswordFields := ["accessToken", "password", "previousPassword"]
  const ForgotPasswordFields := ["username"]

  const MissingRegisterFields := "missing fields 'username', 'password'"
  const MissingLoginFields := "missing fields 'username'"
  const MissingChangePasswordFields := "missing fields 'accessToken','password','previousPassword'"
  const MissingForgotPasswordFields := "missing fields 'username'"

  const NewPasswordRequired := "NEW_PASSWORD_REQUIRED"

  /** The call `login` issues for a body. */
  function LoginCall(env: Env, obj: Object): Call {
    InitiateAuth("USER_PASSWORD_AUTH", env.poolClientId, Get(obj, "username"), Get(obj, "password"))
  }

  function SignUpCall(env: Env, obj: Object): Call {
    SignUp(env.poolClientId, Get(obj, "password"), Get(obj, "username"))
  }

  function ChangePasswordCall(obj: Object): Call {
    ChangePassword(Get(obj, "previousPassword"), Get(obj, "password"), Get(obj, "accessToken"))
  }

  function ForgotPasswordCall(env: Env, obj: Object): Call {
    ForgotPassword(env.poolClientId, Get(obj, "username"))
  }

  function ResetPasswordCall(env: Env, obj: Object): Call {
    ConfirmForgotPassword(env.poolClientId, Get(obj, "code"), Get(obj, "username"), Get(obj, "password"))
  }

  /** A JSON answer to a single provider call: 200 with `success` when it
      succeeded, 400 with the provider's error passed through when it failed. */
  predicate Answers(r: Response, outcome: Outcome, success: Payload) {
    && r.headers.None?
    && (r.statusCode == 200 <==> outcome.Succeeded?)
    && (r.statusCode == 400 <==> outcome.Failed?)
    && (outcome.Succeeded? ==> r.body == Some(Stringify(success)))
    && (outcome.Failed? ==> r.body == Some(outcome.error.json))
  }

  /** `handleRegister`: sign up; when `createNewGroup` is neither null nor
      undefined, create the group named `groupName` (the value
      `randomString(10, ...)` produced) and add the user to it. Any failure
      along the chain becomes `response(400, error)`. */
  function Register(env: Env, obj: Object, groupName: string, provider: Provider): (r: Response)
    ensures !IsValidFields(obj, RegisterFields) ==> r == Reply(400, MissingRegisterFields)
    ensures IsValidFields(obj, RegisterFields) && !LooseNotNull(Get(obj, "createNewGroup")) ==>
              Answers(r, provider(SignUpCall(env, obj)), Message("User registered"))
    ensures IsValidFields(obj, RegisterFields) ==>
              (r == Reply(200, "User registered") <==>
                 && provider(SignUpCall(env, obj)).Succeeded?
                 && (LooseNotNull(Get(obj, "createNewGroup")) ==>
                       && provider(CreateGroup(groupName, env.userPoolId)).Succeeded?
                       && provider(AdminAddUserToGroup(groupName, env.userPoolId, Get(obj, "username"))).Succeeded?))
    ensures IsValidFields(obj, RegisterFields) && r != Reply(200, "User registered") ==>
              r.statusCode == 400 && r.headers.None?
    ensures IsValidFields(obj, RegisterFields) && provider(SignUpCall(env, obj)).Failed? ==>
              r == Respond(400, Provided(provider(SignUpCall(env, obj)).error))
    ensures IsValidFields(obj, RegisterFields) && provider(SignUpCall(env, obj)).Succeeded?
            && LooseNotNull(Get(obj, "createNewGroup")) && provider(CreateGroup(groupName, env.userPoolId)).Failed? ==>
              r == Respond(400, Provided(provider(CreateGroup(groupName, env.userPoolId)).error))
    ensures IsValidFields(obj, RegisterFields) && provider(SignUpCall(env, obj)).Succeeded?
            && LooseNotNull(Get(obj, "createNewGroup")) && provider(CreateGroup(groupName, env.userPoolId)).Succeeded?
            && provider(AdminAddUserToGroup(groupName, env.userPoolId, Get(obj, "username"))).Failed? ==>
              r == Respond(400, Provided(provider(AdminAddUserToGroup(groupName, env.userPoolId, Get(obj, "username"))).error))
  {
    if IsValidFields(obj, RegisterFields) then
      var createGroup := LooseNotNull(Get(obj, "createNewGroup"));
      match provider(SignUpCall(env, obj))
      case Failed(e) => Respond(400, Provided(e))
      case Succeeded(_) =>
        if !createGroup then Reply(200, "User registered")
        else
          match provider(CreateGroup(groupName, env.userPoolId))
          case Failed(e) => Respond(400, Provided(e))
          case Succeeded(_) =>
            match provider(AdminAddUserToGroup(groupName, env.userPoolId, Get(obj, "username")))
            case Succeeded(_) => Reply(200, "User registered")
            case Failed(e) => Respond(400, Provided(e))
    else Reply(400, MissingRegisterFields)
  }

  /** `login`: USER_PASSWORD_AUTH with the body's username and password;
      the provider's reply is the body of a 200. */
  function Login(env: Env, obj: Object, provider: Provider): (r: Response)
    ensures !IsValidFields(obj, LoginFields) ==> r == Reply(400, MissingLoginFields)
    ensures IsValidFields(obj, LoginFields) && provider(LoginCall(env, obj)).Succeeded? ==>
              Answers(r, provider(LoginCall(env, obj)), Provided(provider(LoginCall(env, obj)).data))
    ensures IsValidFields(obj, LoginFields) && provider(LoginCall(env, obj)).Failed? ==>
              r == Respond(400, Provided(provider(LoginCall(env, obj)).error))
  {
    if IsValidFields(obj, LoginFields) then
      match provider(LoginCall(env, obj))
      case Succeeded(data) => Respond(200, Provided(data))
      case Failed(e) => Respond(400, Provided(e))
    else Reply(400, MissingLoginFields)
  }

  /** `changepassword`. */
  function ChangePasswordHandler(obj: Object, provider: Provider): (r: Response)
    ensures !IsValidFields(obj, ChangePasswordFields) ==> r == Reply(400, MissingChangePasswordFields)
    ensures IsValidFields(obj, ChangePasswordFields) ==>
              Answers(r, provider(ChangePasswordCall(obj)), Message("Change Password"))
  {
    if IsValidFields(obj, ChangePasswordFields) then
      match provider(ChangePasswordCall(obj))
      case Succeeded(_) => Reply(200, "Change Password")
      case Failed(e) => Respond(400, Provided(e))
    else Reply(400, MissingChangePasswordFields)
  }

  /** `forgotPassword`. */
  function ForgotPasswordHandler(env: Env, obj: Object, provider: Provider): (r: Response)
    ensures !IsValidFields(obj, ForgotPasswordFields) ==> r == Reply(400, MissingForgotPasswordFields)
    ensures IsValidFields(obj, ForgotPasswordFields) ==>
              Answers(r, provider(ForgotPasswordCall(env, obj)), Message("Password reset sent"))
  {
    if IsValidFields(obj, ForgotPasswordFields) then
      match provider(ForgotPasswordCall(env, obj))
      case Succeeded(_) => Reply(200, "Password reset sent")
      case Failed(e) => Respond(400, Provided(e))
    else Reply(400, MissingForgotPasswordFields)
  }

  /** `resetPassword`: no field validation; whatever the body holds is sent. */
  function ResetPassword(env: Env, obj: Object, provider: Provider): (r: Response)
    ensures Answers(r, provider(ResetPasswordCall(env, obj)), Message("Password Updated"))
  {
    match provider(ResetPasswordCall(env, obj))
    case Succeeded(_) => Reply(200, "Password Updated")
    case Failed(e) => Respond(400, Provided(e))
  }

  /** Without its required fields a handler answers without consulting the
      provider: the same response whatever the provider would say. */
  lemma InvalidBodyIssuesNoCall(env: Env, obj: Object, groupName: string, p: Provider, q: Provider)
    ensures !IsValidFields(obj, RegisterFields) ==> Register(env, obj, groupName, p) == Register(env, obj, groupName, q)
    ensures !IsValidFields(obj, LoginFields) ==> Login(env, obj, p) == Login(env, obj, q)
    ensures !IsValidFields(obj, ChangePasswordFields) ==> ChangePasswordHandler(obj, p) == ChangePasswordHandler(obj, q)
    ensures !IsValidFields(obj, ForgotPasswordFields) ==> ForgotPasswordHandler(env, obj, p) == ForgotPasswordHandler(env, obj, q)
  {
  }

  /** Leaving out any one required field yields 400 with the handler's
      fixed message. */
  lemma RegisterMissingField(env: Env, obj: Object, name: string, groupName: string, provider: Provider)
    requires name in RegisterFields && !IsDefined(Get(obj, name))
    ensures Register(env, obj, groupName, provider) == Reply(400, MissingRegisterFields)
  {
    MissingFieldFails(obj, RegisterFields, name);
  }

  /** For `login` the message names only `username`, even when it is the
      password that is missing. */
  lemma LoginMissingField(env: Env, obj: Object, name: string, provider: Provider)
    requires name in LoginFields && !IsDefined(Get(obj, name))
    ensures Login(env, obj, provider) == Reply(400, MissingLoginFields)
  {
    MissingFieldFails(obj, LoginFields, name);
  }

  lemma ChangePasswordMissingField(obj: Object, name: string, provider: Provider)
    requires name in ChangePasswordFields && !IsDefined(Get(obj, name))
    ensures ChangePasswordHandler(obj, provider) == Reply(400, MissingChangePasswordFields)
  {
    MissingFieldFails(obj, ChangePasswordFields, name);
  }

  lemma ForgotPasswordMissingField(env: Env, obj: Object, name: string, provider: Provider)
    requires name in ForgotPasswordFields && !IsDefined(Get(obj, name))
    ensures ForgotPasswordHandler(env, obj, provider) == Reply(400, MissingForgotPasswordFields)
  {
    MissingFieldFails(obj, ForgotPasswordFields, name);
  }
}

=== FILE: js.dfy ===
/** The few JavaScript value semantics the handlers rely on: `undefined`
    and `null`, string conversion in concatenation and template literals,
    and `String.prototype.replace` with a string pattern. */
module Js {
  import opened Wrappers
  import opened Strings

  /** A JSON-like JavaScript value; `Undefined` is what reading a missing
      property yields. */
  datatype Value =
    | Undefined
    | Null
    | Bool(b: bool)
    | Num(n: real)
    | Str(s: string)
    | Arr(items: seq<Value>)
    | Obj(fields: map<string, Value>)

  /** A parsed JSON object: property names to values. */
  type Object = map<string, Value>

  /** `obj[key]`. */
  function Get(obj: Object, key: string): (v: Value)
    ensures key !in obj ==> v == Undefined
  {
    if key in obj then obj[key] else Undefined
  }

  /** `v !== undefined`. */
  predicate IsDefined(v: Value) {
    !v.Undefined?
  }

  /** `v != null`, loose inequality: neither `null` nor `undefined`. */
  predicate LooseNotNull(v: Value) {
    !v.Undefined? && !v.Null?
  }

  /** A string-valued property that may be missing, as a value. */
  function FromOption(o: Option<string>): (v: Value)
    ensures o.None? <==> v == Undefined
  {
    match o
    case None => Undefined
    case Some(s) => Str(s)
  }

  /** String conversion of a possibly missing string, as `"" + x` and
      `${x}` perform it: a missing one reads as "undefined". */
  function ToStr(o: Option<string>): string {
    match o
    case None => "undefined"
    case Some(s) => s
  }

  /** The replacement text `replace` actually inserts (GetSubstitution,
      ECMA-262 section 22.1.3.19.1, for a pattern without capture groups):
      `$$` is a dollar sign, `$&` the matched text, `` $` `` the text before
      the match, `$'` the text after it; every other `$` is literal. */
  function Substitution(matched: string, before: string, after: string, template: string): string
    decreases |template|
  {
    if |template| == 0 then ""
    else if template[0] == '$' && |template| >= 2 && template[1] == '$' then
      "$" + Substitution(matched, before, after, template[2..])
    else if template[0] == '$' && |template| >= 2 && template[1] == '&' then
      matched + Substitution(matched, before, after, template[2..])
    else if template[0] == '$' && |template| >= 2 && template[1] == '`' then
      before + Substitution(matched, before, after, template[2..])
    else if template[0] == '$' && |template| >= 2 && template[1] == '\'' then
      after + Substitution(matched, before, after, template[2..])
    else [template[0]] + Substitution(matched, before, after, template[1..])
  }

  /** `s.replace(pat, rep)` with a string `pat`, as written in JavaScript:
      the first occurrence is replaced by `rep` after `$` patterns in `rep`
      are expanded. */
  function Replace(s: string, pat: string, rep: string): string {
    match IndexOf(s, pat, 0)
    case None => s
    case Some(i) => s[..i] + Substitution(pat, s[..i], s[i + |pat|..], rep) + s[i + |pat|..]
  }

  /** A template without `$` is inserted literally. */
  lemma {:induction false} SubstitutionWithoutDollar(matched: string, before: string, after: string, template: string)
    requires '$' !in template
    ensures Substitution(matched, before, after, template) == template
    decreases |template|
  {
    if |template| > 0 {
      assert '$' !in template[1..] by {
        forall k | 0 <= k < |template[1..]| ensures template[1..][k] != '$' { assert template[1..][k] == template[k + 1]; }
      }
      SubstitutionWithoutDollar(matched, before, after, template[1..]);
      assert [template[0]] + template[1..] == template;
    }
  }

  /** Without a `$` in the replacement, JavaScript's `replace` is the
      literal first-occurrence replacement. */
  lemma ReplaceWithoutDollar(s: string, pat: string, rep: string)
    requires '$' !in rep
    ensures Replace(s, pat, rep) == ReplaceFirst(s, pat, rep)
  {
    var found := IndexOf(s, pat, 0);
    if found.Some? {
      var i := found.value;
      SubstitutionWithoutDollar(pat, s[..i], s[i + |pat|..], rep);
      assert Replace(s, pat, rep) == s[..i] + rep + s[i + |pat|..];
    }
  }

  /** With a `$` pattern in the replacement, JavaScript's `replace` need not
      insert the replacement literally: replacing the placeholder by `$$`
      leaves a single dollar sign, and by `$'` inserts the text after the
      placeholder once more, where the literal replacement keeps both. */
  lemma ReplaceExpandsDollar()
    ensures Replace("${link}", "${link}", "$$") == "$"
    ensures ReplaceFirst("${link}", "${link}", "$$") == "$$"
    ensures Replace("a ${link} b", "${link}", "$'") == "a  b b"
    ensures ReplaceFirst("a ${link} b", "${link}", "$'") == "a $' b"
  {
    DoubleDollarCase();
    AfterMatchCase();
  }

  lemma DoubleDollarCase()
    ensures Replace("${link}", "${link}", "$$") == "$"
    ensures ReplaceFirst("${link}", "${link}", "$$") == "$$"
  {
    assert IndexOf("${link}", "${link}", 0) == Some(0);
    assert Substitution("${link}", "", "", "") == "";
  }

  lemma AfterMatchCase()
    ensures Replace("a ${link} b", "${link}", "$'") == "a  b b"
    ensures ReplaceFirst("a ${link} b", "${link}", "$'") == "a $' b"
  {
    var s := "a ${link} b";
    FirstPlaceholderAt2();
    assert s[..2] == "a ";
    assert s[9..] == " b";
    assert Substitution("${link}", "a ", " b", "") == "";
  }

  lemma FirstPlaceholderAt2()
    ensures IndexOf("a ${link} b", "${link}", 0) == Some(2)
  {
    var s := "a ${link} b";
    assert s[2..9] == "${link}";
    assert s[0..7][0] == 'a';
    assert s[1..8][0] == ' ';
  }
}

=== FILE: json.dfy ===
/** The string part of `JSON.stringify` (the QuoteJSONString operation of
    ECMA-262, section 25.5.2) and the matching string reading of
    `JSON.parse`. */
module Json {
  import opened Wrappers

  const Backspace: char := '\U{8}'
  const FormFeed: char := '\U{C}'

  /** A character `JSON.stringify` copies through unescaped. */
  predicate Plain(c: char) {
    c != '"' && c != '\\' && c >= ' '
  }

  function HexDigit(n: nat): (c: char)
    requires n < 16
    ensures IsHex(c) && HexValue(c) == n
  {
    if n < 10 then ('0' as int + n) as char else ('a' as int + n - 10) as char
  }

  predicate IsHex(c: char) {
    ('0' <= c <= '9') || ('a' <= c <= 'f') || ('A' <= c <= 'F')
  }

  function HexValue(c: char): nat
    requires IsHex(c)
  {
    if '0' <= c <= '9' then c as int - '0' as int
    else if 'a' <= c <= 'f' then c as int - 'a' as int + 10
    else c as int - 'A' as int + 10
  }

  /** Every character of `s` is plain. */
  predicate AllPlain(s: string) {
    forall i :: 0 <= i < |s| ==> Plain(s[i])
  }

  /** The escape `JSON.stringify` writes for one character. */
  function EscapeChar(c: char): (e: string)
    ensures |e| >= 1
  {
    if c == '"' then "\\\""
    else if c == '\\' then "\\\\"
    else if c == Backspace then "\\b"
    else if c == FormFeed then "\\f"
    else if c == '\n' then "\\n"
    else if c == '\r' then "\\r"
    else if c == '\t' then "\\t"
    else if c < ' ' then "\\u00" + [HexDigit((c as int) / 16), HexDigit((c as int) % 16)]
    else [c]
  }

  /** The characters of a JSON string literal between its quotes. */
  function Escape(s: string): string
    decreases |s|
  {
    if |s| == 0 then "" else EscapeChar(s[0]) + Escape(s[1..])
  }

  /** `JSON.stringify(s)` for a string `s`. */
  function Quote(s: string): string {
    "\"" + Escape(s) + "\""
  }

  function Prepend(c: char, rest: Option<string>): Option<string> {
    match rest
    case None => None
    case Some(t) => Some([c] + t)
  }

  /** Reads the inside of a JSON string literal back into the string it
      denotes; `None` when it is not well formed. Surrogate escapes are not
      read (a Dafny `char` is a Unicode scalar value). */
  function Unescape(e: string): (r: Option<string>)
    decreases |e|
  {
    if |e| == 0 then Some("")
    else if e[0] == '\\' then
      if |e| < 2 then None
      else if e[1] == '"' then Prepend('"', Unescape(e[2..]))
      else if e[1] == '\\' then Prepend('\\', Unescape(e[2..]))
      else if e[1] == '/' then Prepend('/', Unescape(e[2..]))
      else if e[1] == 'b' then Prepend(Backspace, Unescape(e[2..]))
      else if e[1] == 'f' then Prepend(FormFeed, Unescape(e[2..]))
      else if e[1] == 'n' then Prepend('\n', Unescape(e[2..]))
      else if e[1] == 'r' then Prepend('\r', Unescape(e[2..]))
      else if e[1] == 't' then Prepend('\t', Unescape(e[2..]))
      else if e[1] == 'u' && |e| >= 6 && IsHex(e[2]) && IsHex(e[3]) && IsHex(e[4]) && IsHex(e[5]) then
        var v := HexValue(e[2]) * 4096 + HexValue(e[3]) * 256 + HexValue(e[4]) * 16 + HexValue(e[5]);
        if 0xD800 <= v <= 0xDFFF then None
        else Prepend(v as char, Unescape(e[6..]))
      else None
    else if !Plain(e[0]) then None
    else Prepend(e[0], Unescape(e[1..]))
  }

  /** Reading one escaped character consumes exactly its escape. */
  lemma UnescapeChar(c: char, t: string)
    ensures Unescape(EscapeChar(c) + t) == Prepend(c, Unescape(t))
  {
    var e := EscapeChar(c) + t;
    if c == '"' || c == '\\' || c == Backspace || c == FormFeed || c == '\n' || c == '\r' || c == '\t' {
      assert e[2..] == t;
    } else if c < ' ' {
      var hi, lo := (c as int) / 16, (c as int) % 16;
      assert e[..6] == ['\\', 'u', '0', '0', HexDigit(hi), HexDigit(lo)];
      assert e[6..] == t;
      assert HexValue(e[2]) * 4096 + HexValue(e[3]) * 256 + HexValue(e[4]) * 16 + HexValue(e[5]) == c as int;
    } else {
      assert e[1..] == t;
    }
  }

  /** `JSON.parse` reads back exactly the string `JSON.stringify` wrote. */
  lemma {:induction false} UnescapeEscape(s: string)
    ensures Unescape(Escape(s)) == Some(s)
    decreases |s|
  {
    if |s| > 0 {
      UnescapeChar(s[0], Escape(s[1..]));
      UnescapeEscape(s[1..]);
      assert [s[0]] + s[1..] == s;
    }
  }

  /** A string of plain characters is written as itself. */
  lemma {:induction false} EscapePlain(s: string)
    requires AllPlain(s)
    ensures Escape(s) == s
    decreases |s|
  {
    if |s| > 0 {
      assert Plain(s[0]);
      assert AllPlain(s[1..]) by {
        forall i | 0 <= i < |s[1..]| ensures Plain(s[1..][i]) { assert s[1..][i] == s[i + 1]; }
      }
      EscapePlain(s[1..]);
      assert [s[0]] + s[1..] == s;
    }
  }
}

=== FILE: query.dfy ===
/** Query strings of the form `k1=v1&k2=v2&...`, as the handlers write them
    into redirect locations and e-mail links, and the reading of such a
    string back into its ordered key/value pairs. */
module Query {
  import opened Strings

  datatype Pair = Pair(key: string, value: string)

  /** `key=value`. */
  function Field(p: Pair): string {
    p.key + "=" + p.value
  }

  function FieldTexts(ps: seq<Pair>): (fs: seq<string>)
    ensures |fs| == |ps|
    ensures forall i :: 0 <= i < |ps| ==> fs[i] == Field(ps[i])
  {
    if |ps| == 0 then [] else [Field(ps[0])] + FieldTexts(ps[1..])
  }

  /** The pairs joined by `&`, in the order given. */
  function QueryString(ps: seq<Pair>): string {
    Join(FieldTexts(ps), '&')
  }

  /** One `key=value` field, split at its first `=`; a field without `=`
      is a key with an empty value. */
  function ParseField(f: string): Pair
    decreases |f|
  {
    if |f| == 0 then Pair("", "")
    else if f[0] == '=' then Pair("", f[1..])
    else
      var rest := ParseField(f[1..]);
      Pair([f[0]] + rest.key, rest.value)
  }

  /** Reads a query string back into its pairs, in order of appearance. */
  function ParseQuery(q: string): (ps: seq<Pair>)
    ensures |ps| == |Split(q, '&')|
  {
    var fs := Split(q, '&');
    seq(|fs|, i requires 0 <= i < |fs| => ParseField(fs[i]))
  }

  /** A pair can be written into a query string and read back unchanged. */
  predicate Readable(p: Pair) {
    '=' !in p.key && '&' !in p.key && '&' !in p.value
  }

  lemma {:induction false} ParseFieldOf(p: Pair)
    requires '=' !in p.key
    ensures ParseField(Field(p)) == p
    decreases |p.key|
  {
    var f := Field(p);
    if |p.key| == 0 {
      assert f == "=" + p.value;
      assert f[1..] == p.value;
    } else {
      var tail := Pair(p.key[1..], p.value);
      assert '=' !in tail.key by {
        forall k | 0 <= k < |tail.key| ensures tail.key[k] != '=' { assert tail.key[k] == p.key[k + 1]; }
      }
      assert f[0] == p.key[0];
      assert f[1..] == Field(tail);
      ParseFieldOf(tail);
      assert [p.key[0]] + p.key[1..] == p.key;
    }
  }

  /** Writing pairs into a query string and reading it back gives the same
      pairs in the same order. */
  lemma ParseQueryString(ps: seq<Pair>)
    requires |ps| >= 1
    requires forall i :: 0 <= i < |ps| ==> Readable(ps[i])
    ensures ParseQuery(QueryString(ps)) == ps
  {
    var fs := FieldTexts(ps);
    forall i | 0 <= i < |fs| ensures '&' !in fs[i] {
      assert fs[i] == ps[i].key + "=" + ps[i].value;
    }
    SplitJoin(fs, '&');
    forall i | 0 <= i < |ps| ensures ParseField(fs[i]) == ps[i] {
      ParseFieldOf(ps[i]);
    }
  }
}

=== FILE: random.dfy ===
/** `randomString(length, chars)`: `length` characters, each picked from
    `chars` by one draw of `Math.random()`. The draws are given, in the
    order the loop consumes them. */
module Random {

  /** Values `Math.random()` can return: in [0, 1). */
  predicate Draws(ds: seq<real>) {
    forall i :: 0 <= i < |ds| ==> 0.0 <= ds[i] < 1.0
  }

  /** `Math.floor(d * n)`. */
  function Index(d: real, n: nat): (k: int)
    requires 0.0 <= d < 1.0 && n > 0
    ensures 0 <= k < n
  {
    assert d * (n as real) < n as real by {
      assert (1.0 - d) * (n as real) > 0.0;
    }
    (d * (n as real)).Floor
  }

  /** `chars[k]` appended to a string: the character, or "undefined" when
      `chars` is empty and the index reads past its end. */
  function Pick(chars: string, d: real): (p: string)
    requires 0.0 <= d < 1.0
    ensures |chars| > 0 ==> |p| == 1 && p[0] in chars
  {
    if |chars| == 0 then "undefined" else [chars[Index(d, |chars|)]]
  }

  /** The number of times `for (i = length; i > 0; --i)` runs. */
  function Rounds(length: int): nat {
    if length > 0 then length else 0
  }

  method RandomString(length: int, chars: string, draws: seq<real>) returns (result: string)
    requires Draws(draws) && |draws| >= Rounds(length)
    ensures |chars| > 0 ==> |result| == Rounds(length)
    ensures |chars| > 0 ==> forall k :: 0 <= k < |result| ==> result[k] == chars[Index(draws[k], |chars|)]
    ensures |chars| > 0 ==> forall k :: 0 <= k < |result| ==> result[k] in chars
    ensures |chars| == 0 ==> |result| == 9 * Rounds(length)
    ensures |chars| == 0 ==> forall k :: 0 <= k < Rounds(length) ==> result[9 * k..9 * k + 9] == "undefined"
  {
    result := "";
    var i := length;
    var n := 0;
    while i > 0
      invariant n == Rounds(length) - Rounds(i)
      invariant |chars| > 0 ==> |result| == n
      invariant |chars| > 0 ==> forall k :: 0 <= k < n ==> result[k] == chars[Index(draws[k], |chars|)]
      invariant |chars| == 0 ==> |result| == 9 * n
      invariant |chars| == 0 ==> forall k :: 0 <= k < n ==> result[9 * k..9 * k + 9] == "undefined"
    {
      var before := result;
      result := result + Pick(chars, draws[n]);
      if |chars| == 0 {
        assert forall k :: 0 <= k < n ==> result[9 * k..9 * k + 9] == before[9 * k..9 * k + 9];
        assert result[9 * n..9 * n + 9] == "undefined";
      }
      i := i - 1;
      n := n + 1;
    }
  }
}

=== FILE: router.dfy ===
/** The entry point of the auth gateway (`lambdaHandler` in
    requests/app.js): a total dispatch on the path, the presence of a body
    and the HTTP method. */
module Router {
  import opened Wrappers
  import opened Js
  import opened Envelope
  import Handlers
  import Confirm
  import Fields

  /** The inbound event; `body` arrives already parsed from its JSON text. */
  datatype Request = Request(
    path: Option<string>,
    body: Option<Object>,
    httpMethod: Option<string>,
    queryStringParameters: Option<Confirm.QueryParameters>)

  datatype Route =
    | Register
    | Login
    | ChangePassword
    | ForgotPassword
    | ResetPassword
    | UnknownPath       // a body on any other path
    | ConfirmSignUp
    | ConfirmRegistration
    | Preflight         // an OPTIONS request nothing earlier matched
    | InvalidBody

  /** The paths served with a body. */
  const BodyPaths: set<string> := {"/register", "/login", "/changePassword", "/forgotPassword", "/resetPassword"}

  /** Which branch of `lambdaHandler` a request takes. */
  function RouteOf(e: Request): (route: Route)
    ensures e.path.Some? && e.body.Some? ==>
              (route == Register <==> e.path.value == "/register")
              && (route == Login <==> e.path.value == "/login")
              && (route == ChangePassword <==> e.path.value == "/changePassword")
              && (route == ForgotPassword <==> e.path.value == "/forgotPassword")
              && (route == ResetPassword <==> e.path.value == "/resetPassword")
              && (route == UnknownPath <==> e.path.value !in BodyPaths)
    ensures route in {Register, Login, ChangePassword, ForgotPassword, ResetPassword, UnknownPath} <==>
              e.path.Some? && e.body.Some?
    ensures route == ConfirmSignUp <==> e.body.None? && e.path == Some("/confirmSignUp")
    ensures route == ConfirmRegistration <==> e.body.None? && e.path == Some("/confirmRegistration")
    ensures route == Preflight <==>
              && !(e.path.Some? && e.body.Some?)
              && e.path != Some("/confirmSignUp") && e.path != Some("/confirmRegistration")
              && e.httpMethod == Some("OPTIONS")
    ensures route == InvalidBody <==>
              && !(e.path.Some? && e.body.Some?)
              && e.path != Some("/confirmSignUp") && e.path != Some("/confirmRegistration")
              && e.httpMethod != Some("OPTIONS")
  {
    if e.path.Some? && e.body.Some? then
      var path := e.path.value;
      if path == "/register" then Register
      else if path == "/login" then Login
      else if path == "/changePassword" then ChangePassword
      else if path == "/forgotPassword" then ForgotPassword
      else if path == "/resetPassword" then ResetPassword
      else UnknownPath
    else if e.path == Some("/confirmSignUp") then ConfirmSignUp
    else if e.path == Some("/confirmRegistration") then ConfirmRegistration
    else if e.httpMethod == Some("OPTIONS") then Preflight
    else InvalidBody
  }

  /** `lambdaHandler`. `groupName` is the name `randomString` produced for
      a registration that asks for a new group; `encode` stands for
      `encodeURIComponent`. The confirmation links are served by
      `confirmRegistration` as written (`Confirm.ConfirmRegistrationAsWritten`). */
  function Handle(env: Handlers.Env, e: Request, provider: Handlers.Provider, groupName: string, encode: string -> string)
    : (r: Settled<Response>)
    ensures RouteOf(e) == UnknownPath ==> r == Resolved(Reply(400, "invalid request"))
    ensures RouteOf(e) == Preflight ==> r == Resolved(Reply(200, "it's all good"))
    ensures RouteOf(e) == InvalidBody ==> r == Resolved(Reply(400, "invalid body"))
    ensures RouteOf(e) == Register ==> r == Resolved(Handlers.Register(env, e.body.value, groupName, provider))
    ensures RouteOf(e) == Login ==> r == Resolved(Handlers.Login(env, e.body.value, provider))
    ensures RouteOf(e) == ChangePassword ==> r == Resolved(Handlers.ChangePasswordHandler(e.body.value, provider))
    ensures RouteOf(e) == ForgotPassword ==> r == Resolved(Handlers.ForgotPasswordHandler(env, e.body.value, provider))
    ensures RouteOf(e) == ResetPassword ==> r == Resolved(Handlers.ResetPassword(env, e.body.value, provider))
    ensures RouteOf(e) == ConfirmSignUp ==> r == Confirm.ConfirmSignUpHandler(env, e.queryStringParameters, provider)
    ensures RouteOf(e) == ConfirmRegistration ==>
              r == Confirm.ConfirmRegistrationAsWritten(env, e.queryStringParameters, provider, encode)
  {
    Dispatch(env, e, provider, groupName, Confirm.ConfirmRegistrationAsWritten(env, e.queryStringParameters, provider, encode))
  }

  /** `lambdaHandler` with the intended `confirmRegistration`
      (`Confirm.ConfirmRegistration`). */
  function HandleIntended(env: Handlers.Env, e: Request, provider: Handlers.Provider, groupName: string, encode: string -> string)
    : (r: Settled<Response>)
    ensures RouteOf(e) != ConfirmRegistration ==> r == Handle(env, e, provider, groupName, encode)
    ensures RouteOf(e) == ConfirmRegistration ==>
              r == Confirm.ConfirmRegistration(env, e.queryStringParameters, provider, encode)
  {
    Dispatch(env, e, provider, groupName, Confirm.ConfirmRegistration(env, e.queryStringParameters, provider, encode))
  }

  /** The branch chain of `lambdaHandler`, given the answer of the
      `/confirmRegistration` branch. */
  function Dispatch(env: Handlers.Env, e: Request, provider: Handlers.Provider, groupName: string, confirmRegistration: Settled<Response>)
    : Settled<Response>
  {
    match RouteOf(e)
    case Register => Resolved(Handlers.Register(env, e.body.value, groupName, provider))
    case Login => Resolved(Handlers.Login(env, e.body.value, provider))
    case ChangePassword => Resolved(Handlers.ChangePasswordHandler(e.body.value, provider))
    case ForgotPassword => Resolved(Handlers.ForgotPasswordHandler(env, e.body.value, provider))
    case ResetPassword => Resolved(Handlers.ResetPassword(env, e.body.value, provider))
    case UnknownPath => Resolved(Reply(400, "invalid request"))
    case ConfirmSignUp => Confirm.ConfirmSignUpHandler(env, e.queryStringParameters, provider)
    case ConfirmRegistration => confirmRegistration
    case Preflight => Resolved(Reply(200, "it's all good"))
    case InvalidBody => Resolved(Reply(400, "invalid body"))
  }

  /** A body on a path other than the five known ones is answered with
      400 `{"message":"invalid request"}`, whatever the method, query or
      provider. */
  lemma UnknownPathIsInvalidRequest(env: Handlers.Env, e: Request, provider: Handlers.Provider, groupName: string, encode: string -> string)
    requires e.path.Some? && e.body.Some? && e.path.value !in BodyPaths
    ensures Handle(env, e, provider, groupName, encode) == Resolved(Reply(400, "invalid request"))
    ensures ReadMessage(Reply(400, "invalid request").body.value) == Some("invalid request")
  {
    ReplyShape(400, "invalid request");
  }

  /** The invocation fails on a confirmation path without query
      parameters, and on `/confirmRegistration` when the query lacks the
      username or the code; everything else resolves to a response. */
  lemma RejectedOnlyWithoutQuery(env: Handlers.Env, e: Request, provider: Handlers.Provider, groupName: string, encode: string -> string)
    ensures Handle(env, e, provider, groupName, encode).Rejected? <==>
              || (RouteOf(e) in {ConfirmSignUp, ConfirmRegistration} && e.queryStringParameters.None?)
              || (&& RouteOf(e) == ConfirmRegistration && e.queryStringParameters.Some?
                  && !Fields.IsValidFields(Confirm.Credentials(e.queryStringParameters.value), Handlers.LoginFields))
  {
  }

  /** With the intended `confirmRegistration`, only a confirmation request
      without query parameters makes the invocation fail. */
  lemma IntendedRejectedOnlyWithoutQuery(env: Handlers.Env, e: Request, provider: Handlers.Provider, groupName: string, encode: string -> string)
    ensures HandleIntended(env, e, provider, groupName, encode).Rejected? <==>
              RouteOf(e) in {ConfirmSignUp, ConfirmRegistration} && e.queryStringParameters.None?
  {
  }

  /** The two routers agree on a confirmation link whose login is
      attempted and succeeds. */
  lemma IntendedAgreesOnSuccessfulLogin(env: Handlers.Env, e: Request, provider: Handlers.Provider, groupName: string, encode: string -> string)
    requires RouteOf(e) == ConfirmRegistration && e.queryStringParameters.Some?
    requires Fields.IsValidFields(Confirm.Credentials(e.queryStringParameters.value), Handlers.LoginFields)
    requires provider(Handlers.LoginCall(env, Confirm.Credentials(e.queryStringParameters.value))).Succeeded?
    ensures HandleIntended(env, e, provider, groupName, encode) == Handle(env, e, provider, groupName, encode)
  {
    Confirm.AgreeOnSuccessfulLogin(env, e.queryStringParameters.value, provider, encode);
  }
}

=== FILE: strings.dfy ===
/** String searching, joining and splitting, as the JavaScript built-ins
    `indexOf`, `endsWith`, `join` and `split` behave on a single-character
    separator. */
module Strings {
  import opened Wrappers

  /** `s.endsWith(suffix)`. */
  predicate EndsWith(s: string, suffix: string) {
    |suffix| <= |s| && s[|s| - |suffix|..] == suffix
  }

  /** `pat` occurs in `s` starting at index `i`. */
  predicate OccursAt(s: string, pat: string, i: nat) {
    i + |pat| <= |s| && s[i..i + |pat|] == pat
  }

  /** `s.indexOf(pat, from)`: the least index at or after `from` where `pat` occurs. */
  function IndexOf(s: string, pat: string, from: nat): (r: Option<nat>)
    ensures r.Some? ==> from <= r.value && OccursAt(s, pat, r.value)
    ensures r.Some? ==> forall j: nat :: from <= j < r.value ==> !OccursAt(s, pat, j)
    ensures r.None? ==> forall j: nat :: from <= j ==> !OccursAt(s, pat, j)
    decreases |s| - from
  {
    if from + |pat| > |s| then None
    else if s[from..from + |pat|] == pat then Some(from)
    else IndexOf(s, pat, from + 1)
  }

  /** Replaces the first occurrence of `pat` in `s` by `rep`, taking `rep`
      literally; without an occurrence `s` comes back unchanged. */
  function ReplaceFirst(s: string, pat: string, rep: string): (r: string)
    ensures (forall i: nat :: !OccursAt(s, pat, i)) ==> r == s
    ensures forall i: nat :: OccursAt(s, pat, i) && (forall j: nat :: j < i ==> !OccursAt(s, pat, j)) ==>
              r == s[..i] + rep + s[i + |pat|..]
  {
    match IndexOf(s, pat, 0)
    case None => s
    case Some(i) => s[..i] + rep + s[i + |pat|..]
  }

  /** `parts.join(sep)`. */
  function Join(parts: seq<string>, sep: char): string
    decreases |parts|
  {
    if |parts| == 0 then ""
    else if |parts| == 1 then parts[0]
    else parts[0] + [sep] + Join(parts[1..], sep)
  }

  /** `s.split(sep)`: the pieces between occurrences of `sep`; there is
      always at least one piece, `"".split(sep)` being `[""]`. */
  function Split(s: string, sep: char): (parts: seq<string>)
    ensures |parts| >= 1
    decreases |s|
  {
    if |s| == 0 then [""]
    else
      var rest := Split(s[1..], sep);
      if s[0] == sep then [""] + rest
      else [[s[0]] + rest[0]] + rest[1..]
  }

  /** A piece without the separator is not split at all. */
  lemma {:induction false} SplitNoSeparator(p: string, sep: char)
    requires sep !in p
    ensures Split(p, sep) == [p]
    decreases |p|
  {
    if |p| > 0 {
      assert sep !in p[1..] by {
        forall k | 0 <= k < |p[1..]| ensures p[1..][k] != sep { assert p[1..][k] == p[k + 1]; }
      }
      SplitNoSeparator(p[1..], sep);
      assert [p[0]] + p[1..] == p;
    }
  }

  /** Splitting `p + [sep] + t` yields `p` followed by the pieces of `t`. */
  lemma {:induction false} SplitAfterPiece(p: string, t: string, sep: char)
    requires sep !in p
    ensures Split(p + [sep] + t, sep) == [p] + Split(t, sep)
    decreases |p|
  {
    var s := p + [sep] + t;
    if |p| == 0 {
      assert s == [sep] + t;
      assert s[1..] == t;
    } else {
      assert s[1..] == p[1..] + [sep] + t;
      assert sep !in p[1..] by {
        forall k | 0 <= k < |p[1..]| ensures p[1..][k] != sep { assert p[1..][k] == p[k + 1]; }
      }
      SplitAfterPiece(p[1..], t, sep);
      assert [p[0]] + p[1..] == p;
    }
  }

  /** `split` undoes `join` when no piece holds the separator. */
  lemma {:induction false} SplitJoin(parts: seq<string>, sep: char)
    requires |parts| >= 1
    requires forall i :: 0 <= i < |parts| ==> sep !in parts[i]
    ensures Split(Join(parts, sep), sep) == parts
    decreases |parts|
  {
    if |parts| == 1 {
      SplitNoSeparator(parts[0], sep);
    } else {
      SplitJoin(parts[1..], sep);
      SplitAfterPiece(parts[0], Join(parts[1..], sep), sep);
      assert [parts[0]] + parts[1..] == parts;
    }
  }

  /** The last character of a string with a given suffix is that suffix's last character. */
  lemma LastCharOfSuffix(s: string, suffix: string)
    requires |suffix| > 0 && EndsWith(s, suffix)
    ensures s[|s| - 1] == suffix[|suffix| - 1]
  {
    assert s[|s| - |suffix|..][|suffix| - 1] == s[|s| - 1];
  }

  /** Any string ends with itself appended to something. */
  lemma EndsWithAppended(x: string, suffix: string)
    ensures EndsWith(x + suffix, suffix)
  {
    assert (x + suffix)[|x|..] == suffix;
  }

  /** A character in no piece, other than the separator, is not in their join. */
  lemma {:induction false} NoSeparatorInJoin(parts: seq<string>, sep: char, c: char)
    requires c != sep
    requires forall i :: 0 <= i < |parts| ==> c !in parts[i]
    ensures c !in Join(parts, sep)
    decreases |parts|
  {
    if |parts| > 1 {
      NoSeparatorInJoin(parts[1..], sep, c);
    }
  }
}

=== FILE: wrappers.dfy ===
/** Small failure-carrying datatypes shared by every module. */
module Wrappers {

  /** A value that may be absent; `None` plays the part of JavaScript's `undefined`. */
  datatype Option<+T> = None | Some(value: T)

  /** How a promise returned by a handler settles: with a value, or rejected
      (a thrown TypeError, a failed store read) so that the invocation fails. */
  datatype Settled<+T> = Resolved(value: T) | Rejected
}
